=== FILE: README.md ===
# Chat backend model

A Dafny model of the sequential core of a Spring chat backend (ChatApp). The
backend keeps:

- users;
- an in-memory token map, where a user is logged in while it holds a token;
- an in-memory websocket session map, where a user is online while some session maps to them;
- private and group chat rooms, participant records for the group rooms, messages, and directed friendship records.

The core covers:

- the chat, friend and account services;
- the session registry;
- the signup validator;
- the guard logic of the three REST controllers.

The whole backend state is one immutable `Model.Store` record. Every request handler is a pure function from the store and the request to a `Responses.Reply`. A reply holds:

- the status code;
- the body on success;
- the store afterwards;
- the notifications pushed while serving the request, in order.

Persistence is an abstract in-memory table per entity, in storage order. Each table has its own identity counter. Derived queries are filters over these tables. A query that returns one row returns the first match.

Modules, following the source's structure:

| file | module | models |
|---|---|---|
| model.dfy | `Model` | the entities (`User`, `UserDTO`, `Chatroom`, `Message`, `Participant`, `Friendship`), the notification, and the store |
| users.dfy | `Users` | `User.isValid`, with the e-mail pattern `.+@.+\..+` encoded structurally, and `toDTO` |
| sessions.dfy | `Sessions` | `WebsocketSessionManager` |
| accounts.dfy | `Accounts` | `AccountService`: user table, token map, notification topics |
| friends.dfy | `Friends` | `FriendService`: the directed friendship relation |
| room_order.dfy | `RoomOrder` | the stable "most recent first" sort of the room list |
| chat.dfy | `Chat` | `ChatService` |
| responses.dfy | `Responses` | status codes and replies |
| chat_endpoints.dfy | `ChatEndpoints` | `ChatController`, including the notification fan-out |
| friend_endpoints.dfy | `FriendEndpoints` | `FriendController`, including the find-or-create of a pair's room |
| account_endpoints.dfy | `AccountEndpoints` | `AccountController` |
| socket_events.dfy | `SocketEvents` | the websocket `login` message and the disconnect event |
| invariants.dfy | `StoreInvariants` | store invariants that every writing handler keeps, and their consequences |

## Behaviour worth knowing

- **Null strings.** A Java `String` that may be `null` is a `JString` (`Option<string>`). In string concatenation a null operand prints as `null` (`Model.Show`). This is why a message preview can read `null: null`.
- **Missing rows become 500.** A handler that dereferences a missing user row throws, and Spring answers 500. This covers:
  - the caller's own row in `FriendController.getInfo`, `ChatController.viewChatRoom`, `ChatController.sendMessageToRoom`, `AccountController.setAPIKey` and `FriendController.addFriend`;
  - either party in `FriendController.viewChatHistory` and `FriendController.sendMessage`.

  The model returns `SERVER_ERROR` with the store unchanged. A missing friend in `addFriend` and `searchFriend` is answered 404 before any dereference, and `searchFriend` never reads the caller's row. `AccountController.getInfo` answers 200 with an empty body for a missing caller.
  - `StoreInvariants.AuthenticatedCallerIsStored` shows the caller's row is never missing in a store that satisfies the invariants.
  - `ChatService.inChatroom` dereferences the user once per roster entry of a group room, and once for a private room. So only an empty group roster answers 403 for a missing caller; every other room answers 500 (`ChatEndpoints.MissingCallerStatus`).
- **Fan-out can fail after the message is stored.** `sendMessageToRoom` stores the message first, then pushes to each online participant other than the sender.
  - The push destination is `getNotificationTopic`, which is `null` for a user with no token.
  - The messaging template refuses a `null` destination and throws.
  - A user who logs out over HTTP keeps their websocket session (`SocketEvents.LogoutLeavesUserOnline`).
  - So a send to a room with such a user answers 500 after the message is stored. The pushes made before that user stay made, and later recipients get none.
  - The model reproduces this (`ChatEndpoints.FanOut`, `ChatEndpoints.SendOutcomeDependsOnTokens`).
- **No membership check on send.** `sendMessageToRoom` checks no membership. Any authenticated user can post into any existing room, and the model does not add a check.
- **Unreachable logout 403.** The `logout` answer 403 ("Not logged in") cannot happen. Authentication has already found the token, so `AccountEndpoints.Logout` proves the status is 401 or 200.

## Model

| member | source | states |
|---|---|---|
| Users.IsValid | src/main/java/com/example/demo/model/User.java:24-35 | rejects a null or empty id, a null password or one shorter than 6 characters, and a null or non-matching e-mail; accepts exactly when none of the three applies |
| Users.EmailMatches | src/main/java/com/example/demo/model/User.java:31-33 | the full-match test of `.+@.+\..+` holds iff some '@' at index i > 0 and some '.' at index j with i+1 < j < len-1 exist in a string without line terminators |
| Users.EmailSplit | src/main/java/com/example/demo/model/User.java:31-33 | a matching address is x + "@" + y + "." + z with x, y, z non-empty and free of line terminators |
| Users.SplitMatches | src/main/java/com/example/demo/model/User.java:31-33 | conversely every such x + "@" + y + "." + z matches the pattern |
| Users.FirstAt | src/main/java/com/example/demo/model/User.java:31 | finds the first '@' at or after a position, or reports there is none |
| Users.LastDot | src/main/java/com/example/demo/model/User.java:31 | finds the last '.' at or before a position, or reports there is none |
| Users.ToDTO | src/main/java/com/example/demo/model/User.java:37-39 | the snapshot carries exactly the user's id and name |
| Users.ToDTOIgnoresCredentials | src/main/java/com/example/demo/model/User.java:37-39 | changing password, e-mail or API key leaves the snapshot unchanged |
| Sessions.AddSession | src/main/java/com/example/demo/websocket/WebsocketSessionManager.java:31-33 | afterwards the session exists and the user is online; the session maps to the user (overwriting); every other session is unchanged |
| Sessions.DeleteSession | src/main/java/com/example/demo/websocket/WebsocketSessionManager.java:40-44 | the session is gone; an absent session leaves the map as it was; every other session is unchanged |
| Sessions.SessionQueriesAgree | src/main/java/com/example/demo/websocket/WebsocketSessionManager.java:68-80 | a registered session makes its user online, and a user is online iff some registered session belongs to them |
| Sessions.SessionExistsByUserId | src/main/java/com/example/demo/websocket/WebsocketSessionManager.java:68-70 | holds iff some session maps to the user |
| Sessions.FilterOnlineUser | src/main/java/com/example/demo/websocket/WebsocketSessionManager.java:52-60 | keeps exactly the users whose id is online, each with its input multiplicity, never more users than given |
| Sessions.FilterOnlineUserAppend | src/main/java/com/example/demo/websocket/WebsocketSessionManager.java:52-60 | the filter distributes over concatenation, so it keeps the input order |
| Sessions.AddThenQuery | src/main/java/com/example/demo/websocket/WebsocketSessionManager.java:31-80 | both queries see a session right after it is added |
| Sessions.SecondSessionKeepsUserOnline | src/main/java/com/example/demo/websocket/WebsocketSessionManager.java:40-70 | a user with two sessions stays online when one closes |
| Sessions.LastSessionTakesUserOffline | src/main/java/com/example/demo/websocket/WebsocketSessionManager.java:40-70 | closing a user's only session takes the user offline |
| Accounts.FindUser | src/main/java/com/example/demo/service/AccountService.java:49-51 | the result is a stored row with that id, the first one; there is none iff no row has the id |
| Accounts.CheckUserExistIffStored | src/main/java/com/example/demo/service/AccountService.java:39-41 | holds iff some stored row carries the id, and then findUser returns a row with it |
| Accounts.CreateUser | src/main/java/com/example/demo/service/AccountService.java:29-31 | `save`: a row under a stored id is overwritten in place and the table keeps its length; a new id's row is appended after the existing rows; either way the user is stored |
| Accounts.VerifyUser | src/main/java/com/example/demo/service/AccountService.java:60-63 | holds iff the offered password equals the stored one; the stored one must be present |
| Accounts.TokenLifecycle | src/main/java/com/example/demo/service/AccountService.java:72-119 | after a login exactly the returned token authenticates the user; after a logout no token does; nobody else's authentication changes |
| Accounts.GetNotificationTopic | src/main/java/com/example/demo/service/AccountService.java:84-88 | null iff no token is stored; otherwise the user's token can be read back from the topic |
| Accounts.TopicIsPrefixedToken | src/main/java/com/example/demo/service/AccountService.java:84-88 | a logged-in user's topic is "/topic/notifications/" followed by the token |
| Accounts.TopicsDistinguishTokens | src/main/java/com/example/demo/service/AccountService.java:84-88 | users with different tokens get different topics |
| Accounts.Login | src/main/java/com/example/demo/service/AccountService.java:97-104 | a stored token is reused with the map unchanged; otherwise the new token is stored; the user is authenticated with the returned token; no other user's token changes |
| Accounts.LoginIdempotent | src/main/java/com/example/demo/service/AccountService.java:97-104 | a second login returns the same token and map, whatever new token it is offered |
| Accounts.Logout | src/main/java/com/example/demo/service/AccountService.java:112-119 | reports true iff a token was stored; false changes nothing; afterwards the id has no token and no other token changed; no token authenticates the id any more |
| Accounts.SetAPIKey | src/main/java/com/example/demo/service/AccountService.java:127-130 | rows with the user's id get the new key; every other row is unchanged |
| Accounts.SetAPIKeyKeepsIdentity | src/main/java/com/example/demo/service/AccountService.java:127-130 | after a key change the user is still found, with the same snapshot |
| Friends.FindByUserAndFriend | src/main/java/com/example/demo/repository/FriendShipRepository.java:11 | returns a record linking exactly that (user, friend) pair; none iff no record does |
| Friends.IsYourFriend | src/main/java/com/example/demo/service/FriendService.java:57-59 | holds iff some record has user = u's snapshot and friend = f's snapshot |
| Friends.AddFriend | src/main/java/com/example/demo/service/FriendService.java:43-48 | appends one record (u, f) and then isYourFriend(u, f) holds |
| Friends.AddFriendOnlyAddsPair | src/main/java/com/example/demo/service/FriendService.java:43-48 | the answer changes only for the pair (u, f): the relation is directed |
| Friends.GetFriends | src/main/java/com/example/demo/service/FriendService.java:28-35 | lists the friend side of exactly the records whose user side is u's snapshot |
| Friends.GetFriendsAppend | src/main/java/com/example/demo/service/FriendService.java:28-35 | a new record extends its user's list at the end, in storage order, and no other list |
| Friends.AddFriendExtendsList | src/main/java/com/example/demo/service/FriendService.java:28-48 | after addFriend(u, f), u's list is the old list followed by f |
| RoomOrder.WithStamp | src/main/java/com/example/demo/service/ChatService.java:60 | selects exactly the input rooms of one timestamp, never more rooms than given |
| RoomOrder.WithStampAppend | src/main/java/com/example/demo/service/ChatService.java:60 | the selection distributes over concatenation, so it keeps input order and multiplicity |
| RoomOrder.PrependKeepsOrder | src/main/java/com/example/demo/service/ChatService.java:60 | a room not older than any room of a sorted list may lead it |
| RoomOrder.Insert | src/main/java/com/example/demo/service/ChatService.java:60 | insertion into a most-recent-first list keeps it sorted and is a permutation plus the new room |
| RoomOrder.InsertKeepsStampOrder | src/main/java/com/example/demo/service/ChatService.java:60 | insertion keeps the relative order of rooms with equal timestamps |
| RoomOrder.SortByRecency | src/main/java/com/example/demo/service/ChatService.java:60 | the result is non-increasing in lastModified and a permutation of the input |
| RoomOrder.SortKeepsStampOrder | src/main/java/com/example/demo/service/ChatService.java:60 | the sort is stable: rooms of equal timestamp keep their input order |
| Chat.FindChatroom | src/main/java/com/example/demo/service/ChatService.java:87-89 | returns a stored room with that id; none iff no room has it |
| Chat.FindByParticipants | src/main/java/com/example/demo/repository/ChatroomRepository.java:13 | returns a room whose columns are exactly (p1, p2); none iff no room has them |
| Chat.FindByParticipantsAppend | src/main/java/com/example/demo/repository/ChatroomRepository.java:13 | a room appended after non-matching rooms is found iff it matches |
| Chat.FindOurChatroom | src/main/java/com/example/demo/service/ChatService.java:98-104 | returns a stored room joining the two users in some order; null iff neither order exists |
| Chat.FindOurChatroomSymmetric | src/main/java/com/example/demo/service/ChatService.java:98-104 | whether a pair has a room does not depend on the order of the pair |
| Chat.CreatePrivateChatroom | src/main/java/com/example/demo/service/ChatService.java:71-79 | adds exactly one room: private, (u1, u2), stamped now, next room id, no name or preview; nothing else changes |
| Chat.CreateThenFind | src/main/java/com/example/demo/service/ChatService.java:71-104 | after creation both users find exactly the new room |
| Chat.GetAllMessage | src/main/java/com/example/demo/service/ChatService.java:112-114 | returns exactly the messages whose room is this room |
| Chat.GetAllMessageAppend | src/main/java/com/example/demo/service/ChatService.java:112-114 | a new message extends its room's history at the end and no other history |
| Chat.SendMessage | src/main/java/com/example/demo/service/ChatService.java:124-134 | appends one message (next id, room, content, now, sender snapshot); the room's rows become the handed room with lastModified = now and preview "name: content", every other column as handed; no other room or table changes |
| Chat.SendMessageHistory | src/main/java/com/example/demo/service/ChatService.java:112-134 | after a send the room's history is the old one plus the new message; other rooms' histories are unchanged |
| Chat.Roster | src/main/java/com/example/demo/repository/ParticipantRepository.java:12 | lists exactly the participants recorded for the room |
| Chat.RosterAppend | src/main/java/com/example/demo/repository/ParticipantRepository.java:12 | a new record extends its room's roster at the end and no other roster: storage order and duplicates kept |
| Chat.GetAllParticipant | src/main/java/com/example/demo/service/ChatService.java:193-208 | [participant1, participant2] for a private room; exactly the room's roster for a group room |
| Chat.GetAllParticipantAppend | src/main/java/com/example/demo/service/ChatService.java:193-208 | a new record extends a group room's participant list at the end, in storage order; a private room's list is unchanged |
| Chat.ExceptId | src/main/java/com/example/demo/service/ChatService.java:164-185 | keeps exactly the entries whose id differs from the given one, never more than given |
| Chat.ExceptIdAppend | src/main/java/com/example/demo/service/ChatService.java:164-185 | the id filter distributes over concatenation, so kept entries stay in order |
| Chat.ExceptIdCount | src/main/java/com/example/demo/service/ChatService.java:164-185 | the id filter keeps each entry with a different id as often as it occurs and drops the rest |
| Chat.ExceptIdSingle | src/main/java/com/example/demo/service/ChatService.java:164-185 | a single entry is kept exactly when its id differs from the given one |
| Chat.RosterExcept | src/main/java/com/example/demo/service/ChatService.java:176-182 | the group loop equals the roster filtered by id |
| Chat.GetAllParticipantExceptSender | src/main/java/com/example/demo/service/ChatService.java:164-185 | equals getAllParticipant with every entry of the sender's id removed; never contains the sender |
| Chat.OnRoster | src/main/java/com/example/demo/service/ChatService.java:147-152 | holds iff some roster entry of the room has the id |
| Chat.InChatroom | src/main/java/com/example/demo/service/ChatService.java:143-155 | holds iff some participant of the room has the user's id |
| Chat.Renamed | src/main/java/com/example/demo/service/ChatService.java:49-57 | only the name changes; a group room is unchanged; a private room takes the name of the participant who is not the user, and participant 2's name when both are the user |
| Chat.GroupRooms | src/main/java/com/example/demo/service/ChatService.java:41-45 | lists exactly the rooms that the user's participant records point to |
| Chat.PrivateRooms | src/main/java/com/example/demo/service/ChatService.java:47-59 | lists exactly the rooms naming the user in a participant column, each private one renamed |
| Chat.GroupRoomsAppend | src/main/java/com/example/demo/service/ChatService.java:41-45 | a new participant record of the user extends the group list at the end with its room: roster order, one entry per record |
| Chat.PrivateRoomsAppend | src/main/java/com/example/demo/service/ChatService.java:47-59 | a new room mentioning the user extends the private list at the end, renamed: storage order, one entry per room |
| Chat.ViewAllChatroom | src/main/java/com/example/demo/service/ChatService.java:39-62 | a permutation of group rooms plus renamed rooms, sorted most recent first, stably |
| Chat.ListedUnderOtherName | src/main/java/com/example/demo/service/ChatService.java:47-59 | every room naming the user is listed, a private one under the other participant's name |
| Chat.ListedRoomsBelongToUser | src/main/java/com/example/demo/service/ChatService.java:39-62 | every listed room is a group room of the user or a renamed room naming the user |
| ChatEndpoints.Recipients | src/main/java/com/example/demo/controller/ChatController.java:66 | exactly the participants other than the sender that are online |
| ChatEndpoints.RecipientsCount | src/main/java/com/example/demo/controller/ChatController.java:66 | each online participant other than the sender is a recipient exactly as often as it is a participant; nobody else is one |
| ChatEndpoints.FanOut | src/main/java/com/example/demo/controller/ChatController.java:67-71 | one push per recipient in order, each carrying the notification to the recipient's topic; completes iff every recipient has a topic, else stops at the first without one |
| ChatEndpoints.SendMessageToRoom | src/main/java/com/example/demo/controller/ChatController.java:55-73 | 401, then 404 for an unknown room, with no change and no push; 500 with no change when the caller's row is missing; otherwise exactly one message is stored, with no membership check |
| ChatEndpoints.SendFansOutToOnlineOthers | src/main/java/com/example/demo/controller/ChatController.java:63-72 | a successful send pushes (room id, sender name, content) to the topic of each recipient, one push per recipient entry and in order, and to no one else; with RecipientsCount, each online participant other than the sender is notified once per participant entry |
| ChatEndpoints.SameRecipientsAfterSend | src/main/java/com/example/demo/controller/ChatController.java:64-66 | storing the message changes neither the recipients nor the tokens |
| ChatEndpoints.SendOutcomeDependsOnTokens | src/main/java/com/example/demo/controller/ChatController.java:63-72 | the message is stored either way; the answer is 200 iff every recipient holds a token, otherwise 500 |
| ChatEndpoints.MissingCallerStatus | src/main/java/com/example/demo/service/ChatService.java:143-155 | a caller with no stored row gets 403 iff the room is a group room with no participants, otherwise 500 |
| ChatEndpoints.ViewChatHistory | src/main/java/com/example/demo/controller/ChatController.java:84-99 | 401, then 404, then 403 for a non-member; a caller with no stored row gets MissingCallerStatus; 200 exactly for a member, with the room's messages; never changes the store |
| ChatEndpoints.ViewChatRoom | src/main/java/com/example/demo/controller/ChatController.java:109-116 | 401, else 200 with the user's room list; never changes the store |
| ChatEndpoints.GetParticipants | src/main/java/com/example/demo/controller/ChatController.java:127-141 | 401, then 404, then 403 for a non-member; a caller with no stored row gets MissingCallerStatus; 200 exactly for a member, with the participants; never changes the store |
| ChatEndpoints.NonMemberIsForbidden | src/main/java/com/example/demo/controller/ChatController.java:93-138 | an authenticated non-member of an existing room gets 403 from both read endpoints |
| FriendEndpoints.GetInfo | src/main/java/com/example/demo/controller/FriendController.java:44-51 | 401, else 200 with the caller's friend list exactly when the caller's row exists |
| FriendEndpoints.AddFriend | src/main/java/com/example/demo/controller/FriendController.java:62-77 | 401, then 404 for an unknown friend id; 409 with no change iff both are stored and already friends; 200 iff both are stored and not yet friends, and then exactly one friendship is added |
| FriendEndpoints.AddFriendTwiceConflicts | src/main/java/com/example/demo/controller/FriendController.java:71-73 | repeating a successful addFriend is refused with 409 |
| FriendEndpoints.SearchFriend | src/main/java/com/example/demo/controller/FriendController.java:88-98 | 401, then 404 for an unknown id; 200 iff authenticated and the id is stored, with exactly that user's snapshot |
| FriendEndpoints.ViewChatHistory | src/main/java/com/example/demo/controller/FriendController.java:109-121 | 401; 404 iff both users exist and no room joins them in either order; 200 iff both exist and such a room does, with its messages and no friendship check |
| FriendEndpoints.RoomFor | src/main/java/com/example/demo/controller/FriendController.java:141-144 | the pair's existing room with the store unchanged, or a newly created room (caller, friend) |
| FriendEndpoints.SendMessage | src/main/java/com/example/demo/controller/FriendController.java:132-147 | 401; 403 with no change iff both are stored and not friends; 200 iff both are stored and friends, and then the room is found or created and exactly one message is stored, creating a room only when none existed |
| AccountEndpoints.GetInfo | src/main/java/com/example/demo/controller/AccountController.java:31-37 | 401, else 200 with the caller's row, empty iff none is stored |
| AccountEndpoints.Signup | src/main/java/com/example/demo/controller/AccountController.java:46-55 | 415 for an invalid user, then 409 for a taken id, each with no change; otherwise the user is stored and found under its id |
| AccountEndpoints.FindAfterCreate | src/main/java/com/example/demo/service/AccountService.java:29-51 | a row appended under a fresh id is what findUser returns for it |
| AccountEndpoints.Login | src/main/java/com/example/demo/controller/AccountController.java:65-72 | 401 for a null or unknown id and for a wrong password; 500 for a stored user without a password; 200 iff the form names a stored user with that password, and then the user's token is issued and authenticates; any other answer leaves the store unchanged |
| AccountEndpoints.LoginTwiceSameToken | src/main/java/com/example/demo/controller/AccountController.java:65-72 | a second successful login returns the same token and changes nothing |
| AccountEndpoints.Logout | src/main/java/com/example/demo/controller/AccountController.java:82-92 | 401 when unauthenticated, otherwise 200 with the token removed; the 403 branch is unreachable |
| AccountEndpoints.LogoutThenLoginIssuesNewToken | src/main/java/com/example/demo/controller/AccountController.java:65-92 | after logout a new login is issued the newly drawn token |
| AccountEndpoints.SetAPIKey | src/main/java/com/example/demo/controller/AccountController.java:103-111 | 401 with no change; 500 with no change for a missing row; otherwise the store is exactly the service's key update of the caller's row, so only that row's key changes |
| SocketEvents.OnLogin | src/main/java/com/example/demo/websocket/WebsocketController.java:35-40 | registers the session only for an id with its current token; otherwise nothing changes |
| SocketEvents.OnDisconnect | src/main/java/com/example/demo/websocket/WebsocketEventListener.java:34-38 | the session is gone and nothing but the session map changes |
| SocketEvents.ForgedLoginIsIgnored | src/main/java/com/example/demo/websocket/WebsocketController.java:37 | a login message with a wrong token changes nothing |
| SocketEvents.LogoutLeavesUserOnline | src/main/java/com/example/demo/controller/AccountController.java:82-92 | after opening a session and logging out, the user is online with no notification topic |
| SocketEvents.DisconnectTakesUserOffline | src/main/java/com/example/demo/websocket/WebsocketEventListener.java:34-38 | closing a user's only session takes the user offline |
| StoreInvariants.Empty | src/main/java/com/example/demo/service/AccountService.java:19 | the initial store satisfies every invariant |
| StoreInvariants.SendKeepsShapes | src/main/java/com/example/demo/service/ChatService.java:131-133 | saving a stored room back changes no id, kind or participant column of any row |
| StoreInvariants.ShapesKeepInvariants | src/main/java/com/example/demo/service/ChatService.java:98-104 | the room invariants and findOurChatroom's answer depend only on those columns |
| StoreInvariants.CreateKeepsRooms | src/main/java/com/example/demo/service/ChatService.java:71-79 | creating the room of a pair without one keeps room ids unique and pairs unique |
| StoreInvariants.OneRoomPerPair | src/main/java/com/example/demo/service/ChatService.java:98-104 | in a valid store a pair of users has at most one private room |
| StoreInvariants.FindUserAfterAppend | src/main/java/com/example/demo/service/AccountService.java:29-51 | appending a row keeps every stored id findable |
| StoreInvariants.FoundUserIsUnique | src/main/java/com/example/demo/service/AccountService.java:49-51 | with unique ids, findUser returns the one row with that id |
| StoreInvariants.SignupKeepsValid | src/main/java/com/example/demo/controller/AccountController.java:46-55 | signup keeps every invariant |
| StoreInvariants.LoginKeepsValid | src/main/java/com/example/demo/controller/AccountController.java:65-72 | login keeps every invariant |
| StoreInvariants.LogoutKeepsValid | src/main/java/com/example/demo/controller/AccountController.java:82-92 | logout keeps every invariant |
| StoreInvariants.SetAPIKeyKeepsIds | src/main/java/com/example/demo/service/AccountService.java:127-130 | a key change keeps ids unique and every id findable |
| StoreInvariants.SetAPIKeyKeepsValid | src/main/java/com/example/demo/controller/AccountController.java:103-111 | setAPIKey keeps every invariant |
| StoreInvariants.AddFriendKeepsPairsUnique | src/main/java/com/example/demo/service/FriendService.java:43-48 | recording a new pair keeps each pair recorded once |
| StoreInvariants.AddFriendKeepsValid | src/main/java/com/example/demo/controller/FriendController.java:62-77 | addFriend keeps every invariant |
| StoreInvariants.SendKeepsValid | src/main/java/com/example/demo/service/ChatService.java:124-134 | a send into a stored room keeps every invariant |
| StoreInvariants.SendMessageToRoomKeepsValid | src/main/java/com/example/demo/controller/ChatController.java:55-73 | sendMessageToRoom keeps every invariant |
| StoreInvariants.FriendSendKeepsValid | src/main/java/com/example/demo/controller/FriendController.java:132-147 | the friend message keeps every invariant, including one private room per pair |
| StoreInvariants.SocketEventsKeepValid | src/main/java/com/example/demo/websocket/WebsocketController.java:35-40 | the socket events keep every invariant |
| StoreInvariants.AuthenticatedCallerIsStored | src/main/java/com/example/demo/controller/FriendController.java:45-50 | while every token belongs to a stored user, an authenticated caller's row exists, so the caller-dereferencing handlers answer 200, setAPIKey for any key |
| StoreInvariants.FollowUpReusesRoom | src/main/java/com/example/demo/controller/FriendController.java:141-145 | after one successful message between a and b, any later successful message between them in either direction adds no room |

## Left out

- Persistence: JPA, transactions and the repositories are in-memory tables with filter semantics and counter-assigned ids. A single-result derived query returns the first match. The source would throw when several rows match, and the store invariants show that this cannot happen.
- SQL null semantics in derived queries are not modelled. A query is a comparison of values, so two null columns compare equal.
- Unused repository queries (the participant lookup by id) are not modelled.
- HTTP and JSON framing: the response body of a refusal is `Failure`, without the error text.
- Path variables, the token header and request parameters are never null, because Spring rejects such requests.
- The request-body ids of `addFriend`, the friend `sendMessage` and `sendMessageToRoom` are taken as non-null. A null one would fail the lookup, which the model already covers as an unknown id.
- The login form's fields and the message content are nullable (`JString`).
- Concurrency: the unsynchronised maps and the check-then-create race on a pair's room are not modelled. The model is sequential, so room uniqueness per pair is a sequential property.
- `UUID.randomUUID()` is the `newToken` parameter.
- `LocalDateTime.now()` is the integer `now` parameter. `sendMessage` reads the clock twice, for the message time and the room's timestamp. Both reads are the single `now`.
- The messaging template is left out. A push is a (destination, notification) pair appended to the reply's push log.
- Logging (`System.out.println`) is dropped.
- `ChatService.inChatroom` compares a roster entry's id with `==` (reference identity) at ChatService.java:149. The model compares values, as lines 145 and 179 do with `equals`.
- The source's `equals` calls on a participant id throw when that id is null. The model compares by value instead, because rows written through these endpoints always carry ids.
- Java string length counts UTF-16 units, while a Dafny `string` is a sequence of characters. The password length is read as the number of characters.
- Chat.ViewAllChatroom: the renaming of private rooms is applied to the listed copies only. The source sets the name on managed entities but does not save them, so the store is unchanged.
- Chat.GroupRooms: a participant record whose room id has no stored room is skipped. In the source the record holds the room itself.
- In a group room the two participant columns are `UserDTO(None, None)`, which stands for the unused embedded value.
- Accounts.SetAPIKey: only the stored rows of the user change. In the source, saving a user that is not stored would insert it, but the endpoint only passes stored users.
- Accounts.VerifyUser: requires the stored password to be present. The source would throw on a null stored password, and `AccountEndpoints.Login` answers 500 for it.
- UserDTO.java is not part of this model. It is taken to be a value pair (id, name) compared by value, as the embedded queries compare it.
- Accounts.CreateUser: a user without an id is appended; JPA would refuse to save it, but sign-up only passes users whose id is present.
- Group room creation and participant records are not written by any endpoint in the core, so they appear only as stored data.

=== FILE: account_endpoints.dfy ===
/**
 The account endpoints: profile lookup, sign-up, login, logout and the API
 key. The login form and the key form come from a request body, so their
 fields may be null; the path id and the token header never are.
 */
module AccountEndpoints {
  import opened Model
  import opened Responses
  import Users
  import Accounts

  /** `getInfo`: the caller's stored row. A missing row is still a 200, with
      an empty body. */
  function GetInfo(st: Store, id: string, token: string): (r: Reply)
    ensures r.store == st && r.pushes == []
    ensures r.status == UNAUTHORIZED <==> !Accounts.IsAuthenticated(st.tokens, id, token)
    ensures r.status != UNAUTHORIZED ==> r.status == OK
    ensures r.status == OK ==> r.body.AccountInfo?
                               && (r.body.account.Some? ==> r.body.account.value in st.users
                                                            && r.body.account.value.id == Some(id))
                               && (r.body.account.None? <==> !Accounts.CheckUserExist(st.users, id))
  {
    if !Accounts.IsAuthenticated(st.tokens, id, token) then Refuse(UNAUTHORIZED, st)
    else Reply(OK, AccountInfo(Accounts.FindUser(st.users, id)), st, [])
  }

  /** `signup`: 415 for a malformed account, 409 for a taken id, otherwise
      the account is stored and nothing else changes. */
  function Signup(st: Store, user: User): (r: Reply)
    ensures r.pushes == []
    ensures r.status == UNSUPPORTED_MEDIA_TYPE <==> !Users.IsValid(user)
    ensures r.status == CONFLICT <==> Users.IsValid(user) && Accounts.CheckUserExist(st.users, user.id.value)
    ensures r.status == OK <==> Users.IsValid(user) && !Accounts.CheckUserExist(st.users, user.id.value)
    ensures r.status != OK ==> r.store == st
    ensures r.status == OK ==> r.store == st.(users := st.users + [user])
    ensures r.status == OK ==> Accounts.FindUser(r.store.users, user.id.value) == Some(user)
  {
    if !Users.IsValid(user) then Refuse(UNSUPPORTED_MEDIA_TYPE, st)
    else if Accounts.CheckUserExist(st.users, user.id.value) then Refuse(CONFLICT, st)
    else
      var users' := Accounts.CreateUser(st.users, user);
      FindAfterCreate(st.users, user);
      Reply(OK, NoContent, st.(users := users'), [])
  }

  /** A row appended under a fresh id is the one found under that id. */
  lemma {:induction false} FindAfterCreate(users: seq<User>, user: User)
    requires user.id.Some? && !Accounts.CheckUserExist(users, user.id.value)
    ensures Accounts.FindUser(users + [user], user.id.value) == Some(user)
  {
    if users == [] {
    } else {
      assert (users + [user])[1..] == users[1..] + [user];
      assert users[0].id != user.id;
      FindAfterCreate(users[1..], user);
    }
  }

  /** `login`: 401 unless the form names a stored user and carries that
      user's password; then the user's token, reused or freshly stored.
      `newToken` is the random UUID AccountService would draw. */
  function Login(st: Store, formId: JString, password: JString, newToken: string): (r: Reply)
    ensures r.pushes == []
    ensures r.status != OK ==> r.store == st
    ensures r.status == OK <==> (formId.Some? && Accounts.FindUser(st.users, formId.value).Some?
                                 && Accounts.FindUser(st.users, formId.value).value.password.Some?
                                 && password == Accounts.FindUser(st.users, formId.value).value.password)
    ensures (formId.None? || Accounts.FindUser(st.users, formId.value).None?) ==> r.status == UNAUTHORIZED
    ensures formId.Some? && Accounts.FindUser(st.users, formId.value).Some? ==>
              var stored := Accounts.FindUser(st.users, formId.value).value.password;
              && (stored.None? ==> r.status == SERVER_ERROR)
              && (stored.Some? && password != stored ==> r.status == UNAUTHORIZED)
    ensures r.status == OK ==>
              && var session := Accounts.Login(st.tokens, formId.value, newToken);
                 && r.body == TokenIssued(formId, session.token)
                 && r.store == st.(tokens := session.tokens)
                 && Accounts.IsAuthenticated(r.store.tokens, formId.value, session.token)
  {
    if formId.None? then Refuse(UNAUTHORIZED, st)
    else
      match Accounts.FindUser(st.users, formId.value)
      case None => Refuse(UNAUTHORIZED, st)
      case Some(user) =>
        if user.password.None? then Refuse(SERVER_ERROR, st)
        else if !Accounts.VerifyUser(user, password) then Refuse(UNAUTHORIZED, st)
        else
          var session := Accounts.Login(st.tokens, user.id.value, newToken);
          Reply(OK, TokenIssued(user.id, session.token), st.(tokens := session.tokens), [])
  }

  /** A second successful login hands out the token of the first and
      changes nothing. */
  lemma LoginTwiceSameToken(st: Store, formId: JString, password: JString, token1: string, token2: string)
    requires Login(st, formId, password, token1).status == OK
    ensures var first := Login(st, formId, password, token1);
            var second := Login(first.store, formId, password, token2);
            second.status == OK && second.body == first.body && second.store == first.store
  {
    var first := Login(st, formId, password, token1);
    assert first.store.users == st.users;
  }

  /** `logout`: 401 for a bad token, otherwise the token is dropped.
      AccountController's 403 answer for a caller who holds no token cannot happen,
      because authentication already found the token. */
  function Logout(st: Store, id: string, token: string): (r: Reply)
    ensures r.pushes == []
    ensures r.status == UNAUTHORIZED <==> !Accounts.IsAuthenticated(st.tokens, id, token)
    ensures r.status != UNAUTHORIZED ==> r.status == OK
    ensures r.status != OK ==> r.store == st
    ensures r.status == OK ==> r.store == st.(tokens := st.tokens - {id})
    ensures r.status == OK ==> forall t :: !Accounts.IsAuthenticated(r.store.tokens, id, t)
  {
    if !Accounts.IsAuthenticated(st.tokens, id, token) then Refuse(UNAUTHORIZED, st)
    else
      var out := Accounts.Logout(st.tokens, id);
      if out.loggedOut then Reply(OK, NoContent, st.(tokens := out.tokens), [])
      else Refuse(FORBIDDEN, st)
  }

  /** Logging out and back in with the same password succeeds, under the
      newly offered token. */
  lemma LogoutThenLoginIssuesNewToken(st: Store, id: string, token: string, password: JString, newToken: string)
    requires Logout(st, id, token).status == OK
    requires Login(st, Some(id), password, token).status == OK
    ensures var again := Login(Logout(st, id, token).store, Some(id), password, newToken);
            again.status == OK && again.body == TokenIssued(Some(id), newToken)
  {
    var out := Logout(st, id, token).store;
    assert out.users == st.users;
    assert id !in out.tokens;
  }

  /** `setAPIKey`: the caller's row gets the new key. A caller whose row is
      missing is dereferenced: 500. */
  function SetAPIKey(st: Store, id: string, token: string, key: JString): (r: Reply)
    ensures r.pushes == []
    ensures r.status == UNAUTHORIZED <==> !Accounts.IsAuthenticated(st.tokens, id, token)
    ensures r.status == OK <==> Accounts.IsAuthenticated(st.tokens, id, token) && Accounts.CheckUserExist(st.users, id)
    ensures Accounts.IsAuthenticated(st.tokens, id, token) && !Accounts.CheckUserExist(st.users, id) ==> r.status == SERVER_ERROR
    ensures r.status != OK ==> r.store == st
    ensures r.status == OK ==>
              && Accounts.FindUser(r.store.users, id).Some?
              && Accounts.FindUser(r.store.users, id).value.apiKey == key
              && Users.ToDTO(Accounts.FindUser(r.store.users, id).value) == Users.ToDTO(Accounts.FindUser(st.users, id).value)
              && r.store == st.(users := r.store.users)
    ensures r.status == OK ==>
              && Accounts.FindUser(st.users, id).Some?
              && r.store == st.(users := Accounts.SetAPIKey(st.users, Accounts.FindUser(st.users, id).value, key))
    ensures r.status == OK ==>
              && |r.store.users| == |st.users|
              && forall k :: 0 <= k < |st.users| && st.users[k].id != Some(id) ==> r.store.users[k] == st.users[k]
  {
    if !Accounts.IsAuthenticated(st.tokens, id, token) then Refuse(UNAUTHORIZED, st)
    else
      match Accounts.FindUser(st.users, id)
      case None => Refuse(SERVER_ERROR, st)
      case Some(user) =>
        var users' := Accounts.SetAPIKey(st.users, user, key);
        Accounts.SetAPIKeyKeepsIdentity(st.users, id, key);
        Reply(OK, NoContent, st.(users := users'), [])
  }
}

=== FILE: accounts.dfy ===
/**
 The account service: the user table and the in-memory token map.
 A user is logged in while the map holds a token for their id; the token is
 the credential every endpoint checks and also names the user's
 notification topic.
 */
module Accounts {
  import opened Model
  import Users

  type TokenMap = map<string, string>

  const TopicPrefix: string := "/topic/notifications/"

  /** `findUser`: the stored user with this id, if any (ids are the primary
      key, so the first match is the only one). */
  function FindUser(users: seq<User>, id: string): (r: Option<User>)
    ensures r.Some? ==> r.value in users && r.value.id == Some(id)
    ensures r.Some? ==> exists k :: 0 <= k < |users| && users[k] == r.value
                                    && forall m :: 0 <= m < k ==> users[m].id != Some(id)
    ensures r.None? <==> forall k :: 0 <= k < |users| ==> users[k].id != Some(id)
  {
    if users == [] then None
    else if users[0].id == Some(id) then Some(users[0])
    else
      var r := FindUser(users[1..], id);
      assert r.Some? ==> exists k :: 0 <= k < |users| && users[k] == r.value
                                     && forall m :: 0 <= m < k ==> users[m].id != Some(id) by {
        if r.Some? {
          var k :| 0 <= k < |users[1..]| && users[1..][k] == r.value
                   && forall m :: 0 <= m < k ==> users[1..][m].id != Some(id);
          assert users[k + 1] == r.value;
          assert forall m :: 0 <= m < k + 1 ==> users[m].id != Some(id) by {
            forall m | 0 <= m < k + 1
              ensures users[m].id != Some(id)
            {
              if m > 0 {
                assert users[m] == users[1..][m - 1];
              }
            }
          }
        }
      }
      assert r.None? ==> forall k :: 0 <= k < |users| ==> users[k].id != Some(id) by {
        if r.None? {
          forall k | 0 <= k < |users|
            ensures users[k].id != Some(id)
          {
            if k > 0 {
              assert users[k] == users[1..][k - 1];
            }
          }
        }
      }
      r
  }

  /** `checkUserExist`. */
  predicate CheckUserExist(users: seq<User>, id: string)
  {
    FindUser(users, id).Some?
  }

  /** Some stored row carries this id. */
  lemma CheckUserExistIffStored(users: seq<User>, id: string)
    ensures CheckUserExist(users, id) <==> exists k :: 0 <= k < |users| && users[k].id == Some(id)
    ensures CheckUserExist(users, id) ==> FindUser(users, id).value.id == Some(id)
  {
  }

  /** `createUser`: `save` on the user table. A row under a stored id is
      overwritten in place; a new id is stored after the existing rows. */
  function CreateUser(users: seq<User>, user: User): (users': seq<User>)
    ensures |users'| == |users| + (if user.id.Some? && CheckUserExist(users, user.id.value) then 0 else 1)
    ensures user.id.Some? && CheckUserExist(users, user.id.value) ==>
              forall k :: 0 <= k < |users| ==> users'[k] == (if users[k].id == user.id then user else users[k])
    ensures !(user.id.Some? && CheckUserExist(users, user.id.value)) ==>
              users'[..|users|] == users && users'[|users|] == user
    ensures user in users'
  {
    if user.id.Some? && CheckUserExist(users, user.id.value) then
      var k :| 0 <= k < |users| && users[k].id == user.id;
      var users' := seq(|users|, i requires 0 <= i < |users| => if users[i].id == user.id then user else users[i]);
      assert users'[k] == user;
      users'
    else users + [user]
  }

  /** `verifyUser`: the stored password equals the offered one.
      AccountService calls `equals` on the stored password, so a row without one cannot
      be verified at all (the caller answers 500). */
  function VerifyUser(user: User, password: JString): (r: bool)
    requires user.password.Some?
    ensures r <==> password == Some(user.password.value)
  {
    password.Some? && password.value == user.password.value
  }

  /** `isAuthenticated`: a token is stored for the id and it is the
      offered one. */
  predicate IsAuthenticated(tokens: TokenMap, id: string, token: string)
  {
    id in tokens && tokens[id] == token
  }

  /** `getNotificationTopic`: null when the user holds no token, otherwise
      the per-token topic. */
  function GetNotificationTopic(tokens: TokenMap, id: JString): (r: JString)
    ensures r.None? <==> id.None? || id.value !in tokens
    ensures r.Some? ==> TokenOfTopic(r.value) == tokens[id.value]
  {
    if id.Some? && id.value in tokens then Some(TopicPrefix + tokens[id.value]) else None
  }

  /** Reads the token back out of a topic name. */
  function TokenOfTopic(topic: string): string
  {
    if |topic| >= |TopicPrefix| then topic[|TopicPrefix|..] else topic
  }

  /** The topic of a logged-in user is the fixed prefix followed by the
      user's token. */
  lemma TopicIsPrefixedToken(tokens: TokenMap, id: string)
    requires id in tokens
    ensures GetNotificationTopic(tokens, Some(id)).Some?
    ensures var topic := GetNotificationTopic(tokens, Some(id)).value;
            topic[..|TopicPrefix|] == TopicPrefix && topic[|TopicPrefix|..] == tokens[id]
  {
  }

  /** Users with different tokens listen on different topics. */
  lemma TopicsDistinguishTokens(tokens: TokenMap, a: string, b: string)
    requires a in tokens && b in tokens && tokens[a] != tokens[b]
    ensures GetNotificationTopic(tokens, Some(a)) != GetNotificationTopic(tokens, Some(b))
  {
    assert TokenOfTopic(TopicPrefix + tokens[a]) == tokens[a];
    assert TokenOfTopic(TopicPrefix + tokens[b]) == tokens[b];
  }

  datatype LoginResult = LoginResult(token: string, tokens: TokenMap)

  /** `login`: reuse the stored token, or store `newToken` (the random UUID
      that AccountService draws, passed in). */
  function Login(tokens: TokenMap, id: string, newToken: string): (r: LoginResult)
    ensures id in tokens ==> r.token == tokens[id] && r.tokens == tokens
    ensures id !in tokens ==> r.token == newToken
    ensures IsAuthenticated(r.tokens, id, r.token)
    ensures r.tokens.Keys == tokens.Keys + {id}
    ensures forall other :: other in tokens && other != id ==> r.tokens[other] == tokens[other]
  {
    if id in tokens then LoginResult(tokens[id], tokens)
    else LoginResult(newToken, tokens[id := newToken])
  }

  /** Logging in twice gives the same token and the same map, whatever
      new token the second call is offered. */
  lemma LoginIdempotent(tokens: TokenMap, id: string, token1: string, token2: string)
    ensures Login(Login(tokens, id, token1).tokens, id, token2) == Login(tokens, id, token1)
  {
  }

  /** Across login and logout, exactly the issued token authenticates its
      user, and nobody else's authentication changes. */
  lemma TokenLifecycle(tokens: TokenMap, id: string, newToken: string, other: string, t: string)
    ensures IsAuthenticated(Login(tokens, id, newToken).tokens, id, t) <==> t == Login(tokens, id, newToken).token
    ensures !IsAuthenticated(Logout(tokens, id).tokens, id, t)
    ensures other != id ==>
              (IsAuthenticated(Login(tokens, id, newToken).tokens, other, t) <==> IsAuthenticated(tokens, other, t))
    ensures other != id ==>
              (IsAuthenticated(Logout(tokens, id).tokens, other, t) <==> IsAuthenticated(tokens, other, t))
  {
  }

  datatype LogoutResult = LogoutResult(loggedOut: bool, tokens: TokenMap)

  /** `logout`: report whether a token existed and drop it. */
  function Logout(tokens: TokenMap, id: string): (r: LogoutResult)
    ensures r.loggedOut <==> id in tokens
    ensures !r.loggedOut ==> r.tokens == tokens
    ensures r.tokens.Keys == tokens.Keys - {id}
    ensures forall other :: other in r.tokens ==> r.tokens[other] == tokens[other]
    ensures forall t :: !IsAuthenticated(r.tokens, id, t)
  {
    if id !in tokens then LogoutResult(false, tokens)
    else LogoutResult(true, tokens - {id})
  }

  /** `setAPIKey`: the stored row of this user gets the new key; every other
      row is kept. */
  function SetAPIKey(users: seq<User>, user: User, key: JString): (users': seq<User>)
    ensures |users'| == |users|
    ensures forall k :: 0 <= k < |users| && users[k].id != user.id ==> users'[k] == users[k]
    ensures forall k :: 0 <= k < |users| && users[k].id == user.id ==> users'[k] == user.(apiKey := key)
  {
    seq(|users|, k requires 0 <= k < |users| => if users[k].id == user.id then user.(apiKey := key) else users[k])
  }

  /** A key change leaves the user's DTO, and so every stored reference to
      the user, as it was. */
  lemma SetAPIKeyKeepsIdentity(users: seq<User>, id: string, key: JString)
    requires FindUser(users, id).Some?
    ensures FindUser(SetAPIKey(users, FindUser(users, id).value, key), id).Some?
    ensures Users.ToDTO(FindUser(SetAPIKey(users, FindUser(users, id).value, key), id).value)
            == Users.ToDTO(FindUser(users, id).value)
  {
    var u := FindUser(users, id).value;
    var users' := SetAPIKey(users, u, key);
    var k :| 0 <= k < |users| && users[k] == u && forall m :: 0 <= m < k ==> users[m].id != Some(id);
    assert users'[k].id == Some(id);
    var u' := FindUser(users', id).value;
    var k' :| 0 <= k' < |users'| && users'[k'] == u' && forall m :: 0 <= m < k' ==> users'[m].id != Some(id);
    assert users'[k'] == u.(apiKey := key);
  }
}

=== FILE: chat.dfy ===
/**
 The chat service: room lookup and creation, membership, participant lists,
 message history and the send step that stores a message and refreshes the
 room's preview. Repository queries are filters over the store's sequences
 in storage order; a single-result query answers with its first match.
 */
module Chat {
  import opened Model
  import Users
  import RoomOrder

  /** `findChatroom` (`findById`). */
  function FindChatroom(rooms: seq<Chatroom>, id: int): (r: Option<Chatroom>)
    ensures r.Some? ==> r.value in rooms && r.value.id == id
    ensures r.None? <==> forall k :: 0 <= k < |rooms| ==> rooms[k].id != id
  {
    if rooms == [] then None
    else if rooms[0].id == id then Some(rooms[0])
    else
      var r := FindChatroom(rooms[1..], id);
      assert forall k :: 1 <= k < |rooms| ==> rooms[1..][k - 1] == rooms[k];
      r
  }

  /** The room's participant columns hold exactly (p1, p2), in that order. */
  predicate HasParticipants(c: Chatroom, p1: UserDTO, p2: UserDTO)
  {
    c.participant1 == p1 && c.participant2 == p2
  }

  /** The room's participant columns hold a and b, in either order. */
  predicate Joins(c: Chatroom, a: UserDTO, b: UserDTO)
  {
    HasParticipants(c, a, b) || HasParticipants(c, b, a)
  }

  /** `findByParticipant1AndParticipant2`. */
  function FindByParticipants(rooms: seq<Chatroom>, p1: UserDTO, p2: UserDTO): (r: Option<Chatroom>)
    ensures r.Some? ==> r.value in rooms && HasParticipants(r.value, p1, p2)
    ensures r.None? <==> forall k :: 0 <= k < |rooms| ==> !HasParticipants(rooms[k], p1, p2)
  {
    if rooms == [] then None
    else if HasParticipants(rooms[0], p1, p2) then Some(rooms[0])
    else
      var r := FindByParticipants(rooms[1..], p1, p2);
      assert forall k :: 1 <= k < |rooms| ==> rooms[1..][k - 1] == rooms[k];
      r
  }

  /** A room appended after rooms that do not match is found by the query
      exactly when it matches. */
  lemma {:induction false} FindByParticipantsAppend(rooms: seq<Chatroom>, c: Chatroom, p1: UserDTO, p2: UserDTO)
    requires FindByParticipants(rooms, p1, p2).None?
    ensures FindByParticipants(rooms + [c], p1, p2) == if HasParticipants(c, p1, p2) then Some(c) else None
  {
    if rooms == [] {
      assert rooms + [c] == [c];
    } else {
      assert (rooms + [c])[1..] == rooms[1..] + [c];
      assert !HasParticipants(rooms[0], p1, p2);
      FindByParticipantsAppend(rooms[1..], c, p1, p2);
    }
  }

  /** `findOurChatroom`: the room stored as (u1, u2), else the one stored
      as (u2, u1). The contract does not state that preference: in a store
      that keeps the invariants a pair has at most one private room
      (`StoreInvariants.OneRoomPerPair`), so both orders find the same one. */
  function FindOurChatroom(rooms: seq<Chatroom>, u1: User, u2: User): (r: Option<Chatroom>)
    ensures r.Some? ==> r.value in rooms && Joins(r.value, Users.ToDTO(u1), Users.ToDTO(u2))
    ensures r.None? <==> forall k :: 0 <= k < |rooms| ==> !Joins(rooms[k], Users.ToDTO(u1), Users.ToDTO(u2))
  {
    var room := FindByParticipants(rooms, Users.ToDTO(u1), Users.ToDTO(u2));
    if room.None? then FindByParticipants(rooms, Users.ToDTO(u2), Users.ToDTO(u1)) else room
  }

  /** Whether a room exists between two users does not depend on who asks. */
  lemma FindOurChatroomSymmetric(rooms: seq<Chatroom>, u1: User, u2: User)
    ensures FindOurChatroom(rooms, u1, u2).None? <==> FindOurChatroom(rooms, u2, u1).None?
  {
  }

  datatype Created = Created(room: Chatroom, store: Store)

  /** `createPrivateChatroom`: a private room (u1, u2) stamped `now`, stored
      under the next room id, with no name and no preview yet. */
  function CreatePrivateChatroom(st: Store, u1: User, u2: User, now: int): (r: Created)
    ensures !r.room.isGroup && r.room.lastModified == now && r.room.id == st.nextRoomId
    ensures r.room.participant1 == Users.ToDTO(u1) && r.room.participant2 == Users.ToDTO(u2)
    ensures r.room.roomName.None? && r.room.lastMessage.None?
    ensures r.store == st.(rooms := st.rooms + [r.room], nextRoomId := st.nextRoomId + 1)
  {
    var room := Chatroom(st.nextRoomId, None, Users.ToDTO(u1), Users.ToDTO(u2), false, now, None);
    Created(room, st.(rooms := st.rooms + [room], nextRoomId := st.nextRoomId + 1))
  }

  /** Once created, the room is what either user finds for the pair. */
  lemma CreateThenFind(st: Store, u1: User, u2: User, now: int)
    requires FindOurChatroom(st.rooms, u1, u2).None?
    ensures FindOurChatroom(CreatePrivateChatroom(st, u1, u2, now).store.rooms, u1, u2)
            == Some(CreatePrivateChatroom(st, u1, u2, now).room)
    ensures FindOurChatroom(CreatePrivateChatroom(st, u1, u2, now).store.rooms, u2, u1)
            == Some(CreatePrivateChatroom(st, u1, u2, now).room)
  {
    var c := CreatePrivateChatroom(st, u1, u2, now).room;
    var d1, d2 := Users.ToDTO(u1), Users.ToDTO(u2);
    FindByParticipantsAppend(st.rooms, c, d1, d2);
    FindByParticipantsAppend(st.rooms, c, d2, d1);
  }

  /** `getAllMessage` (`findAllByRoom`): the room's messages in storage order. */
  function GetAllMessage(messages: seq<Message>, room: Chatroom): (r: seq<Message>)
    ensures forall m :: m in r <==> m in messages && m.room == room.id
    ensures |r| <= |messages|
  {
    if messages == [] then []
    else
      var rest := GetAllMessage(messages[1..], room);
      assert messages == [messages[0]] + messages[1..];
      if messages[0].room == room.id then [messages[0]] + rest else rest
  }

  /** Appending a message extends the history of its own room, at the end,
      and of no other room. */
  lemma {:induction false} GetAllMessageAppend(messages: seq<Message>, m: Message, room: Chatroom)
    ensures GetAllMessage(messages + [m], room)
         == GetAllMessage(messages, room) + (if m.room == room.id then [m] else [])
  {
    if messages == [] {
      assert messages + [m] == [m];
    } else {
      assert (messages + [m])[1..] == messages[1..] + [m];
      GetAllMessageAppend(messages[1..], m, room);
    }
  }

  /** The preview text `sender name + ": " + content`. */
  function Preview(sender: User, content: JString): string
  {
    Show(sender.name) + ": " + Show(content)
  }

  /** The room as `sendMessage` saves it back. */
  function Touched(room: Chatroom, sender: User, content: JString, now: int): Chatroom
  {
    room.(lastModified := now, lastMessage := Some(Preview(sender, content)))
  }

  /** `sendMessage`: store one message under the next message id, then
      save the room with the new timestamp and preview. */
  function SendMessage(st: Store, sender: User, room: Chatroom, content: JString, now: int): (st': Store)
    ensures st'.messages == st.messages + [Message(st.nextMessageId, room.id, content, now, Users.ToDTO(sender))]
    ensures st'.nextMessageId == st.nextMessageId + 1
    ensures |st'.rooms| == |st.rooms|
    ensures forall k :: 0 <= k < |st.rooms| && st.rooms[k].id != room.id ==> st'.rooms[k] == st.rooms[k]
    ensures forall k :: 0 <= k < |st.rooms| && st.rooms[k].id == room.id ==>
              st'.rooms[k].lastModified == now && st'.rooms[k].lastMessage == Some(Show(sender.name) + ": " + Show(content))
    ensures forall k :: 0 <= k < |st.rooms| && st.rooms[k].id == room.id ==>
              st'.rooms[k] == room.(lastModified := now, lastMessage := st'.rooms[k].lastMessage)
    ensures st'.users == st.users && st'.tokens == st.tokens && st'.sessions == st.sessions
    ensures st'.participants == st.participants && st'.friendships == st.friendships
    ensures st'.nextRoomId == st.nextRoomId && st'.nextFriendshipId == st.nextFriendshipId
  {
    var message := Message(st.nextMessageId, room.id, content, now, Users.ToDTO(sender));
    var saved := Touched(room, sender, content, now);
    var rooms' := seq(|st.rooms|, k requires 0 <= k < |st.rooms| => if st.rooms[k].id == room.id then saved else st.rooms[k]);
    st.(messages := st.messages + [message], nextMessageId := st.nextMessageId + 1, rooms := rooms')
  }

  /** After a send, the room's history is the old history plus the new
      message; every other room's history is unchanged. */
  lemma SendMessageHistory(st: Store, sender: User, room: Chatroom, content: JString, now: int, other: Chatroom)
    ensures GetAllMessage(SendMessage(st, sender, room, content, now).messages, room)
         == GetAllMessage(st.messages, room) + [Message(st.nextMessageId, room.id, content, now, Users.ToDTO(sender))]
    ensures other.id != room.id ==>
            GetAllMessage(SendMessage(st, sender, room, content, now).messages, other) == GetAllMessage(st.messages, other)
  {
    var m := Message(st.nextMessageId, room.id, content, now, Users.ToDTO(sender));
    GetAllMessageAppend(st.messages, m, room);
    GetAllMessageAppend(st.messages, m, other);
  }

  /** The group roster of a room (`participantRepo.findAllByRoom`), in
      storage order. */
  function Roster(participants: seq<Participant>, roomId: int): (r: seq<UserDTO>)
    ensures forall d :: d in r <==> exists k :: 0 <= k < |participants| && participants[k].room == roomId
                                                 && participants[k].participant == d
  {
    if participants == [] then []
    else
      var rest := Roster(participants[1..], roomId);
      assert forall k :: 1 <= k < |participants| ==> participants[1..][k - 1] == participants[k];
      if participants[0].room == roomId then [participants[0].participant] + rest else rest
  }

  /** A new participant record extends its room's roster at the end and
      no other roster, so the roster keeps storage order and multiplicity. */
  lemma {:induction false} RosterAppend(participants: seq<Participant>, p: Participant, roomId: int)
    ensures Roster(participants + [p], roomId)
            == Roster(participants, roomId) + (if p.room == roomId then [p.participant] else [])
  {
    if participants == [] {
      assert participants + [p] == [p];
      assert Roster(participants, roomId) == [];
      assert [p][1..] == [];
    } else {
      assert (participants + [p])[0] == participants[0];
      assert (participants + [p])[1..] == participants[1..] + [p];
      RosterAppend(participants[1..], p, roomId);
    }
  }

  /** `getAllParticipant`: the two participant columns of a private room,
      the roster of a group room. */
  function GetAllParticipant(st: Store, room: Chatroom): (r: seq<UserDTO>)
    ensures !room.isGroup ==> |r| == 2 && r[0] == room.participant1 && r[1] == room.participant2
    ensures room.isGroup ==> forall d :: d in r <==> exists k :: 0 <= k < |st.participants| && st.participants[k].room == room.id
                                                                && st.participants[k].participant == d
  {
    if !room.isGroup then [room.participant1, room.participant2]
    else Roster(st.participants, room.id)
  }

  /** A new participant record extends the participant list of its group
      room at the end; private rooms do not read the records. */
  lemma GetAllParticipantAppend(st: Store, p: Participant, room: Chatroom)
    ensures GetAllParticipant(st.(participants := st.participants + [p]), room)
            == GetAllParticipant(st, room) + (if room.isGroup && p.room == room.id then [p.participant] else [])
  {
    RosterAppend(st.participants, p, room.id);
  }

  /** The users of `users` whose id differs from `id`, order kept. */
  function ExceptId(users: seq<UserDTO>, id: JString): (r: seq<UserDTO>)
    ensures forall d :: d in r <==> d in users && d.id != id
    ensures |r| <= |users|
  {
    if users == [] then []
    else
      assert users == [users[0]] + users[1..];
      (if users[0].id != id then [users[0]] else []) + ExceptId(users[1..], id)
  }

  /** The filter distributes over concatenation, so it keeps the order of
      the entries it keeps. */
  lemma {:induction false} ExceptIdAppend(a: seq<UserDTO>, b: seq<UserDTO>, id: JString)
    ensures ExceptId(a + b, id) == ExceptId(a, id) + ExceptId(b, id)
  {
    if a == [] {
      assert a + b == b;
    } else {
      var ab := a + b;
      assert ab[0] == a[0];
      assert ab[1..] == a[1..] + b;
      ExceptIdAppend(a[1..], b, id);
      assert ExceptId(ab, id) == (if a[0].id != id then [a[0]] else []) + ExceptId(a[1..] + b, id);
    }
  }

  /** The filter keeps every entry with a different id as often as it
      occurs, and drops every entry with the given id. */
  lemma {:induction false} ExceptIdCount(users: seq<UserDTO>, id: JString, d: UserDTO)
    ensures multiset(ExceptId(users, id))[d] == if d.id != id then multiset(users)[d] else 0
  {
    if users != [] {
      assert users == [users[0]] + users[1..];
      ExceptIdCount(users[1..], id, d);
    }
  }

  /** A single entry is kept exactly when its id differs. */
  lemma ExceptIdSingle(d: UserDTO, id: JString)
    ensures ExceptId([d], id) == (if d.id != id then [d] else [])
  {
    assert [d][1..] == [];
  }

  /** The group loop of `getAllParticipantExceptSender`. */
  function RosterExcept(participants: seq<Participant>, roomId: int, id: JString): (r: seq<UserDTO>)
    ensures r == ExceptId(Roster(participants, roomId), id)
  {
    if participants == [] then []
    else
      var p := participants[0];
      var rest := RosterExcept(participants[1..], roomId, id);
      if p.room == roomId && p.participant.id != id then [p.participant] + rest else rest
  }

  /** `getAllParticipantExceptSender`: the participant list without every
      entry that carries the sender's id. */
  function GetAllParticipantExceptSender(st: Store, room: Chatroom, sender: User): (r: seq<UserDTO>)
    ensures r == ExceptId(GetAllParticipant(st, room), sender.id)
    ensures forall d :: d in r ==> d.id != sender.id
  {
    if !room.isGroup then
      (if room.participant1.id != sender.id then [room.participant1] else [])
      + (if room.participant2.id != sender.id then [room.participant2] else [])
    else RosterExcept(st.participants, room.id, sender.id)
  }

  /** The group loop of `inChatroom`: some roster entry of the room carries
      the id. */
  function OnRoster(participants: seq<Participant>, roomId: int, id: JString): (r: bool)
    ensures r <==> exists d :: d in Roster(participants, roomId) && d.id == id
  {
    if participants == [] then false
    else
      var p := participants[0];
      var rest := OnRoster(participants[1..], roomId, id);
      if p.room == roomId && p.participant.id == id then true else rest
  }

  /** `inChatroom`: for a private room the id of one of the two
      participants is the user's id; for a group room some roster entry
      carries it. */
  function InChatroom(st: Store, room: Chatroom, user: User): (r: bool)
    ensures r <==> exists d :: d in GetAllParticipant(st, room) && d.id == user.id
  {
    if !room.isGroup then room.participant1.id == user.id || room.participant2.id == user.id
    else OnRoster(st.participants, room.id, user.id)
  }

  /** The participant columns mention this snapshot. */
  predicate Involves(c: Chatroom, d: UserDTO)
  {
    c.participant1 == d || c.participant2 == d
  }

  /** The room as listed to `user`: a private room takes the name of its
      participant whose id is not the user's (participant 2 when both are). */
  function Renamed(c: Chatroom, user: User): (r: Chatroom)
    ensures r == c.(roomName := r.roomName)
    ensures c.isGroup ==> r == c
    ensures !c.isGroup && c.participant1.id == user.id && c.participant2.id != user.id ==> r.roomName == c.participant2.name
    ensures !c.isGroup && c.participant2.id == user.id && c.participant1.id != user.id ==> r.roomName == c.participant1.name
    ensures !c.isGroup && c.participant1.id == user.id && c.participant2.id == user.id ==> r.roomName == c.participant2.name
  {
    if c.isGroup then c
    else c.(roomName := if c.participant1.id != user.id then c.participant1.name else c.participant2.name)
  }

  /** The rooms the user's roster entries point to, in roster order. */
  function GroupRooms(rooms: seq<Chatroom>, participants: seq<Participant>, d: UserDTO): (r: seq<Chatroom>)
    ensures forall c :: c in r <==> exists k :: 0 <= k < |participants| && participants[k].participant == d
                                                 && FindChatroom(rooms, participants[k].room) == Some(c)
  {
    if participants == [] then []
    else
      var rest := GroupRooms(rooms, participants[1..], d);
      assert forall k :: 1 <= k < |participants| ==> participants[1..][k - 1] == participants[k];
      var found := FindChatroom(rooms, participants[0].room);
      if participants[0].participant == d && found.Some? then [found.value] + rest else rest
  }

  /** The rooms whose participant columns mention the user
      (`findAllByParticipant1OrParticipant2`), private ones renamed. */
  function PrivateRooms(rooms: seq<Chatroom>, user: User): (r: seq<Chatroom>)
    ensures forall c :: c in r <==> exists k :: 0 <= k < |rooms| && Involves(rooms[k], Users.ToDTO(user))
                                                 && c == Renamed(rooms[k], user)
  {
    if rooms == [] then []
    else
      var rest := PrivateRooms(rooms[1..], user);
      assert forall k :: 1 <= k < |rooms| ==> rooms[1..][k - 1] == rooms[k];
      if Involves(rooms[0], Users.ToDTO(user)) then [Renamed(rooms[0], user)] + rest else rest
  }

  /** A new participant record of the user extends the group list at the
      end with its room, so the list follows roster order and lists a room
      once per record. */
  lemma {:induction false} GroupRoomsAppend(rooms: seq<Chatroom>, participants: seq<Participant>, p: Participant, d: UserDTO)
    ensures GroupRooms(rooms, participants + [p], d)
            == GroupRooms(rooms, participants, d)
               + (if p.participant == d && FindChatroom(rooms, p.room).Some? then [FindChatroom(rooms, p.room).value] else [])
  {
    if participants == [] {
      assert participants + [p] == [p];
      assert GroupRooms(rooms, participants, d) == [];
      assert [p][1..] == [];
    } else {
      var ps := participants + [p];
      assert ps[0] == participants[0];
      assert ps[1..] == participants[1..] + [p];
      GroupRoomsAppend(rooms, participants[1..], p, d);
    }
  }

  /** A new room extends the user's private list at the end when it
      mentions the user, so the list follows storage order. */
  lemma {:induction false} PrivateRoomsAppend(rooms: seq<Chatroom>, c: Chatroom, user: User)
    ensures PrivateRooms(rooms + [c], user)
            == PrivateRooms(rooms, user) + (if Involves(c, Users.ToDTO(user)) then [Renamed(c, user)] else [])
  {
    if rooms == [] {
      assert rooms + [c] == [c];
      assert PrivateRooms(rooms, user) == [];
      assert [c][1..] == [];
    } else {
      var rs := rooms + [c];
      assert rs[0] == rooms[0];
      assert rs[1..] == rooms[1..] + [c];
      PrivateRoomsAppend(rooms[1..], c, user);
    }
  }

  /** `viewAllChatroom`: the group rooms followed by the renamed rooms that
      mention the user, then sorted most recent first, stably. */
  function ViewAllChatroom(st: Store, user: User): (r: seq<Chatroom>)
    ensures RoomOrder.NonIncreasing(r)
    ensures multiset(r) == multiset(GroupRooms(st.rooms, st.participants, Users.ToDTO(user))
                                    + PrivateRooms(st.rooms, user))
    ensures forall t :: RoomOrder.WithStamp(r, t)
                     == RoomOrder.WithStamp(GroupRooms(st.rooms, st.participants, Users.ToDTO(user))
                                            + PrivateRooms(st.rooms, user), t)
  {
    var listed := GroupRooms(st.rooms, st.participants, Users.ToDTO(user)) + PrivateRooms(st.rooms, user);
    forall t
      ensures RoomOrder.WithStamp(RoomOrder.SortByRecency(listed), t) == RoomOrder.WithStamp(listed, t)
    {
      RoomOrder.SortKeepsStampOrder(listed, t);
    }
    RoomOrder.SortByRecency(listed)
  }

  /** Every stored room that mentions the user is listed, and a private one
      under the name of the other participant. */
  lemma ListedUnderOtherName(st: Store, user: User, k: int)
    requires 0 <= k < |st.rooms| && Involves(st.rooms[k], Users.ToDTO(user))
    ensures Renamed(st.rooms[k], user) in ViewAllChatroom(st, user)
    ensures !st.rooms[k].isGroup && st.rooms[k].participant1.id == user.id && st.rooms[k].participant2.id != user.id
            ==> Renamed(st.rooms[k], user).roomName == st.rooms[k].participant2.name
    ensures !st.rooms[k].isGroup && st.rooms[k].participant2.id == user.id && st.rooms[k].participant1.id != user.id
            ==> Renamed(st.rooms[k], user).roomName == st.rooms[k].participant1.name
  {
    var c := Renamed(st.rooms[k], user);
    var listed := GroupRooms(st.rooms, st.participants, Users.ToDTO(user)) + PrivateRooms(st.rooms, user);
    assert c in PrivateRooms(st.rooms, user);
    assert c in listed;
    assert c in multiset(listed);
  }

  /** Every listed room is one of the user's group rooms or a renamed room
      that mentions the user. */
  lemma ListedRoomsBelongToUser(st: Store, user: User, c: Chatroom)
    requires c in ViewAllChatroom(st, user)
    ensures c in GroupRooms(st.rooms, st.participants, Users.ToDTO(user))
         || exists k :: 0 <= k < |st.rooms| && Involves(st.rooms[k], Users.ToDTO(user)) && c == Renamed(st.rooms[k], user)
  {
    assert c in multiset(ViewAllChatroom(st, user));
  }
}

=== FILE: chat_endpoints.dfy ===
/**
 The room endpoints. Each handler is a pure transition from the store and
 the request to a reply; the guards run in ChatController's order:
 authentication (401), room lookup (404), membership where the endpoint
 checks it (403). Sending into a room checks no membership.
 */
module ChatEndpoints {
  import opened Model
  import opened Responses
  import Users
  import Accounts
  import Sessions
  import Chat

  /** The users a send notifies: the room's participants other than the
      sender, restricted to those with an open session. */
  function Recipients(st: Store, room: Chatroom, sender: User): (r: seq<UserDTO>)
    ensures forall d :: d in r <==> d in Chat.GetAllParticipant(st, room) && d.id != sender.id
                                     && Sessions.IsOnline(st.sessions, d.id)
  {
    Sessions.FilterOnlineUser(st.sessions, Chat.GetAllParticipantExceptSender(st, room, sender))
  }

  /** Each online participant other than the sender is a recipient exactly
      as often as it is a participant, so a send notifies it once per
      participant entry and never more; everyone else is not a recipient. */
  lemma RecipientsCount(st: Store, room: Chatroom, sender: User, d: UserDTO)
    ensures multiset(Recipients(st, room, sender))[d]
            == if d.id != sender.id && Sessions.IsOnline(st.sessions, d.id)
               then multiset(Chat.GetAllParticipant(st, room))[d] else 0
  {
    Chat.ExceptIdCount(Chat.GetAllParticipant(st, room), sender.id, d);
  }

  /** The topic a push to this user goes to, if the user holds a token. */
  function TopicOf(tokens: Accounts.TokenMap, d: UserDTO): JString
  {
    Accounts.GetNotificationTopic(tokens, d.id)
  }

  datatype FanOutResult = FanOutResult(complete: bool, pushes: seq<Push>)

  /** The push loop: one push per recipient, in order, to the recipient's
      topic. The transport refuses a null destination, so the loop stops at
      the first recipient without a token, and the pushes made so far stay
      made. */
  function FanOut(tokens: Accounts.TokenMap, recipients: seq<UserDTO>, note: Notification): (r: FanOutResult)
    ensures |r.pushes| <= |recipients|
    ensures forall k :: 0 <= k < |r.pushes| ==>
              TopicOf(tokens, recipients[k]) == Some(r.pushes[k].destination) && r.pushes[k].notification == note
    ensures r.complete <==> forall k :: 0 <= k < |recipients| ==> TopicOf(tokens, recipients[k]).Some?
    ensures r.complete ==> |r.pushes| == |recipients|
    ensures !r.complete ==> |r.pushes| < |recipients| && TopicOf(tokens, recipients[|r.pushes|]).None?
  {
    if recipients == [] then FanOutResult(true, [])
    else
      match TopicOf(tokens, recipients[0])
      case None => FanOutResult(false, [])
      case Some(destination) =>
        var rest := FanOut(tokens, recipients[1..], note);
        assert forall k :: 1 <= k < |recipients| ==> recipients[1..][k - 1] == recipients[k];
        FanOutResult(rest.complete, [Push(destination, note)] + rest.pushes)
  }

  /** `sendMessageToRoom`. */
  function SendMessageToRoom(st: Store, id: string, token: string, roomId: int, content: JString, now: int): (r: Reply)
    ensures r.status == UNAUTHORIZED <==> !Accounts.IsAuthenticated(st.tokens, id, token)
    ensures r.status == NOT_FOUND <==> Accounts.IsAuthenticated(st.tokens, id, token) && Chat.FindChatroom(st.rooms, roomId).None?
    ensures r.status in {UNAUTHORIZED, NOT_FOUND} ==> r.store == st && r.pushes == []
    ensures r.status == OK ==> |r.store.messages| == |st.messages| + 1
    ensures Accounts.FindUser(st.users, id).None? ==> r.store == st && r.pushes == []
    ensures Accounts.IsAuthenticated(st.tokens, id, token) && Chat.FindChatroom(st.rooms, roomId).Some?
            && Accounts.FindUser(st.users, id).None?
            ==> r.status == SERVER_ERROR
    ensures (Accounts.IsAuthenticated(st.tokens, id, token) && Chat.FindChatroom(st.rooms, roomId).Some?
             && Accounts.FindUser(st.users, id).Some?)
            ==> r.store == Chat.SendMessage(st, Accounts.FindUser(st.users, id).value,
                                            Chat.FindChatroom(st.rooms, roomId).value, content, now)
  {
    if !Accounts.IsAuthenticated(st.tokens, id, token) then Refuse(UNAUTHORIZED, st)
    else
      match Chat.FindChatroom(st.rooms, roomId)
      case None => Refuse(NOT_FOUND, st)
      case Some(room) =>
        match Accounts.FindUser(st.users, id)
        case None => Refuse(SERVER_ERROR, st)
        case Some(user) =>
          var st' := Chat.SendMessage(st, user, room, content, now);
          var out := FanOut(st'.tokens, Recipients(st', room, user), Notification(room.id, user.name, content));
          if out.complete then Reply(OK, NoContent, st', out.pushes)
          else Reply(SERVER_ERROR, Failure, st', out.pushes)
  }

  /** A successful send stores exactly one message, and pushes exactly one
      notification, carrying (room id, sender name, content), to the topic
      of each online participant other than the sender, in roster order. */
  lemma SendFansOutToOnlineOthers(st: Store, id: string, token: string, roomId: int, content: JString, now: int)
    requires SendMessageToRoom(st, id, token, roomId, content, now).status == OK
    ensures Accounts.FindUser(st.users, id).Some? && Chat.FindChatroom(st.rooms, roomId).Some?
    ensures var user, room := Accounts.FindUser(st.users, id).value, Chat.FindChatroom(st.rooms, roomId).value;
            var r := SendMessageToRoom(st, id, token, roomId, content, now);
            && r.store == Chat.SendMessage(st, user, room, content, now)
            && |r.pushes| == |Recipients(st, room, user)|
            && forall k :: 0 <= k < |r.pushes| ==>
                 && TopicOf(st.tokens, Recipients(st, room, user)[k]) == Some(r.pushes[k].destination)
                 && r.pushes[k].notification == Notification(room.id, user.name, content)
                 && Recipients(st, room, user)[k].id != Some(id)
                 && Sessions.IsOnline(st.sessions, Recipients(st, room, user)[k].id)
  {
    var user, room := Accounts.FindUser(st.users, id).value, Chat.FindChatroom(st.rooms, roomId).value;
    var st' := Chat.SendMessage(st, user, room, content, now);
    SameRecipientsAfterSend(st, user, room, content, now);
    var rs := Recipients(st, room, user);
    forall k | 0 <= k < |rs|
      ensures rs[k].id != Some(id) && Sessions.IsOnline(st.sessions, rs[k].id)
    {
      assert rs[k] in rs;
    }
  }

  /** Storing the message changes neither who is notified nor where. */
  lemma SameRecipientsAfterSend(st: Store, user: User, room: Chatroom, content: JString, now: int)
    ensures Recipients(Chat.SendMessage(st, user, room, content, now), room, user) == Recipients(st, room, user)
    ensures Chat.SendMessage(st, user, room, content, now).tokens == st.tokens
  {
  }

  /** The send completes whenever every recipient holds a token; a recipient
      that is online but logged out makes it fail after the message is
      stored. */
  lemma SendOutcomeDependsOnTokens(st: Store, id: string, token: string, roomId: int, content: JString, now: int)
    requires Accounts.IsAuthenticated(st.tokens, id, token)
    requires Chat.FindChatroom(st.rooms, roomId).Some? && Accounts.FindUser(st.users, id).Some?
    ensures var user, room := Accounts.FindUser(st.users, id).value, Chat.FindChatroom(st.rooms, roomId).value;
            var r := SendMessageToRoom(st, id, token, roomId, content, now);
            && r.store == Chat.SendMessage(st, user, room, content, now)
            && (r.status == OK <==> forall d :: d in Recipients(st, room, user) ==> TopicOf(st.tokens, d).Some?)
            && (r.status != OK ==> r.status == SERVER_ERROR)
  {
    var user, room := Accounts.FindUser(st.users, id).value, Chat.FindChatroom(st.rooms, roomId).value;
    var st' := Chat.SendMessage(st, user, room, content, now);
    SameRecipientsAfterSend(st, user, room, content, now);
    var rs := Recipients(st, room, user);
    var out := FanOut(st.tokens, rs, Notification(room.id, user.name, content));
    assert SendMessageToRoom(st, id, token, roomId, content, now)
        == if out.complete then Reply(OK, NoContent, st', out.pushes) else Reply(SERVER_ERROR, Failure, st', out.pushes);
    assert out.complete <==> forall d :: d in rs ==> TopicOf(st.tokens, d).Some? by {
      if out.complete {
        forall d | d in rs ensures TopicOf(st.tokens, d).Some? {
          var k :| 0 <= k < |rs| && rs[k] == d;
        }
      }
    }
  }

  /** What an authenticated caller whose account row is missing gets from
      a membership check: ChatService dereferences the missing user once per
      roster entry, and once for a private room, so only an empty group
      roster answers "not a member". */
  function MissingCallerStatus(st: Store, room: Chatroom): (r: int)
    ensures r == FORBIDDEN || r == SERVER_ERROR
    ensures r == FORBIDDEN <==> room.isGroup && Chat.GetAllParticipant(st, room) == []
  {
    if room.isGroup && Chat.Roster(st.participants, room.id) == [] then FORBIDDEN else SERVER_ERROR
  }

  /** `viewChatHistory`. */
  function ViewChatHistory(st: Store, id: string, token: string, roomId: int): (r: Reply)
    ensures r.store == st && r.pushes == []
    ensures r.status == UNAUTHORIZED <==> !Accounts.IsAuthenticated(st.tokens, id, token)
    ensures r.status == NOT_FOUND <==> Accounts.IsAuthenticated(st.tokens, id, token) && Chat.FindChatroom(st.rooms, roomId).None?
    ensures r.status == OK <==> (Accounts.IsAuthenticated(st.tokens, id, token)
                                 && Chat.FindChatroom(st.rooms, roomId).Some? && Accounts.FindUser(st.users, id).Some?
                                 && Chat.InChatroom(st, Chat.FindChatroom(st.rooms, roomId).value, Accounts.FindUser(st.users, id).value))
    ensures r.status == OK ==>
              r.body == MessageList(Chat.GetAllMessage(st.messages, Chat.FindChatroom(st.rooms, roomId).value))
    ensures Accounts.IsAuthenticated(st.tokens, id, token) && Chat.FindChatroom(st.rooms, roomId).Some?
            && Accounts.FindUser(st.users, id).None?
            ==> r.status == MissingCallerStatus(st, Chat.FindChatroom(st.rooms, roomId).value)
  {
    if !Accounts.IsAuthenticated(st.tokens, id, token) then Refuse(UNAUTHORIZED, st)
    else
      var room := Chat.FindChatroom(st.rooms, roomId);
      var user := Accounts.FindUser(st.users, id);
      if room.None? then Refuse(NOT_FOUND, st)
      else if user.None? then Refuse(MissingCallerStatus(st, room.value), st)
      else if !Chat.InChatroom(st, room.value, user.value) then Refuse(FORBIDDEN, st)
      else Reply(OK, MessageList(Chat.GetAllMessage(st.messages, room.value)), st, [])
  }

  /** `viewChatRoom`. */
  function ViewChatRoom(st: Store, id: string, token: string): (r: Reply)
    ensures r.store == st && r.pushes == []
    ensures r.status == UNAUTHORIZED <==> !Accounts.IsAuthenticated(st.tokens, id, token)
    ensures r.status == OK <==> Accounts.IsAuthenticated(st.tokens, id, token) && Accounts.FindUser(st.users, id).Some?
    ensures r.status == OK ==> r.body == RoomList(Chat.ViewAllChatroom(st, Accounts.FindUser(st.users, id).value))
  {
    if !Accounts.IsAuthenticated(st.tokens, id, token) then Refuse(UNAUTHORIZED, st)
    else
      match Accounts.FindUser(st.users, id)
      case None => Refuse(SERVER_ERROR, st)
      case Some(user) => Reply(OK, RoomList(Chat.ViewAllChatroom(st, user)), st, [])
  }

  /** `getParticipants`. */
  function GetParticipants(st: Store, id: string, token: string, roomId: int): (r: Reply)
    ensures r.store == st && r.pushes == []
    ensures r.status == UNAUTHORIZED <==> !Accounts.IsAuthenticated(st.tokens, id, token)
    ensures r.status == NOT_FOUND <==> Accounts.IsAuthenticated(st.tokens, id, token) && Chat.FindChatroom(st.rooms, roomId).None?
    ensures r.status == OK <==> (Accounts.IsAuthenticated(st.tokens, id, token)
                                 && Chat.FindChatroom(st.rooms, roomId).Some? && Accounts.FindUser(st.users, id).Some?
                                 && Chat.InChatroom(st, Chat.FindChatroom(st.rooms, roomId).value, Accounts.FindUser(st.users, id).value))
    ensures r.status == OK ==> r.body == UserList(Chat.GetAllParticipant(st, Chat.FindChatroom(st.rooms, roomId).value))
    ensures Accounts.IsAuthenticated(st.tokens, id, token) && Chat.FindChatroom(st.rooms, roomId).Some?
            && Accounts.FindUser(st.users, id).None?
            ==> r.status == MissingCallerStatus(st, Chat.FindChatroom(st.rooms, roomId).value)
  {
    if !Accounts.IsAuthenticated(st.tokens, id, token) then Refuse(UNAUTHORIZED, st)
    else
      var room := Chat.FindChatroom(st.rooms, roomId);
      var user := Accounts.FindUser(st.users, id);
      if room.None? then Refuse(NOT_FOUND, st)
      else if user.None? then Refuse(MissingCallerStatus(st, room.value), st)
      else if !Chat.InChatroom(st, room.value, user.value) then Refuse(FORBIDDEN, st)
      else Reply(OK, UserList(Chat.GetAllParticipant(st, room.value)), st, [])
  }

  /** A caller who is not a member of an existing room is refused with 403
      and sees neither history nor roster. */
  lemma NonMemberIsForbidden(st: Store, id: string, token: string, roomId: int)
    requires Accounts.IsAuthenticated(st.tokens, id, token)
    requires Chat.FindChatroom(st.rooms, roomId).Some? && Accounts.FindUser(st.users, id).Some?
    requires !Chat.InChatroom(st, Chat.FindChatroom(st.rooms, roomId).value, Accounts.FindUser(st.users, id).value)
    ensures ViewChatHistory(st, id, token, roomId).status == FORBIDDEN
    ensures GetParticipants(st, id, token, roomId).status == FORBIDDEN
  {
  }
}

=== FILE: friend_endpoints.dfy ===
/**
 The friend endpoints: listing, adding and searching friends, the private
 history with a friend, and the direct message that finds or creates the
 private room of the pair. A missing friend row is dereferenced by
 FriendController where it is used, which Spring answers with 500.
 */
module FriendEndpoints {
  import opened Model
  import opened Responses
  import Users
  import Accounts
  import Friends
  import Chat

  /** `getInfo`: the caller's friend list. */
  function GetInfo(st: Store, id: string, token: string): (r: Reply)
    ensures r.store == st && r.pushes == []
    ensures r.status == UNAUTHORIZED <==> !Accounts.IsAuthenticated(st.tokens, id, token)
    ensures r.status == OK <==> Accounts.IsAuthenticated(st.tokens, id, token) && Accounts.FindUser(st.users, id).Some?
    ensures r.status == OK ==> r.body == UserList(Friends.GetFriends(st.friendships, Accounts.FindUser(st.users, id).value))
  {
    if !Accounts.IsAuthenticated(st.tokens, id, token) then Refuse(UNAUTHORIZED, st)
    else
      match Accounts.FindUser(st.users, id)
      case None => Refuse(SERVER_ERROR, st)
      case Some(user) => Reply(OK, UserList(Friends.GetFriends(st.friendships, user)), st, [])
  }

  /** `addFriend`: 401, then 404 for an unknown friend id, then 409 when the
      pair is already recorded; otherwise one record is stored. */
  function AddFriend(st: Store, id: string, token: string, friendId: string): (r: Reply)
    ensures r.pushes == []
    ensures r.status == UNAUTHORIZED <==> !Accounts.IsAuthenticated(st.tokens, id, token)
    ensures r.status == NOT_FOUND <==>
              Accounts.IsAuthenticated(st.tokens, id, token) && !Accounts.CheckUserExist(st.users, friendId)
    ensures r.status == CONFLICT <==>
              && Accounts.IsAuthenticated(st.tokens, id, token)
              && Accounts.FindUser(st.users, id).Some? && Accounts.FindUser(st.users, friendId).Some?
              && Friends.IsYourFriend(st.friendships, Accounts.FindUser(st.users, id).value,
                                      Accounts.FindUser(st.users, friendId).value)
    ensures r.status == OK <==>
              && Accounts.IsAuthenticated(st.tokens, id, token)
              && Accounts.FindUser(st.users, id).Some? && Accounts.FindUser(st.users, friendId).Some?
              && !Friends.IsYourFriend(st.friendships, Accounts.FindUser(st.users, id).value,
                                       Accounts.FindUser(st.users, friendId).value)
    ensures r.status != OK ==> r.store == st
    ensures r.status == OK ==>
              && Accounts.FindUser(st.users, id).Some? && Accounts.FindUser(st.users, friendId).Some?
              && !Friends.IsYourFriend(st.friendships, Accounts.FindUser(st.users, id).value, Accounts.FindUser(st.users, friendId).value)
              && r.store == st.(friendships := Friends.AddFriend(st.friendships, st.nextFriendshipId,
                                                                 Accounts.FindUser(st.users, id).value,
                                                                 Accounts.FindUser(st.users, friendId).value),
                                nextFriendshipId := st.nextFriendshipId + 1)
  {
    if !Accounts.IsAuthenticated(st.tokens, id, token) then Refuse(UNAUTHORIZED, st)
    else if !Accounts.CheckUserExist(st.users, friendId) then Refuse(NOT_FOUND, st)
    else
      var user := Accounts.FindUser(st.users, id);
      var friend := Accounts.FindUser(st.users, friendId).value;
      if user.None? then Refuse(SERVER_ERROR, st)
      else if Friends.IsYourFriend(st.friendships, user.value, friend) then Refuse(CONFLICT, st)
      else
        var fs := Friends.AddFriend(st.friendships, st.nextFriendshipId, user.value, friend);
        Reply(OK, NoContent, st.(friendships := fs, nextFriendshipId := st.nextFriendshipId + 1), [])
  }

  /** Adding a friend who is already recorded is refused with 409. */
  lemma AddFriendTwiceConflicts(st: Store, id: string, token: string, friendId: string)
    requires AddFriend(st, id, token, friendId).status == OK
    ensures AddFriend(AddFriend(st, id, token, friendId).store, id, token, friendId).status == CONFLICT
  {
    var st' := AddFriend(st, id, token, friendId).store;
    assert st'.users == st.users && st'.tokens == st.tokens;
  }

  /** `searchFriend`: the DTO of any existing user. */
  function SearchFriend(st: Store, id: string, token: string, friendId: string): (r: Reply)
    ensures r.store == st && r.pushes == []
    ensures r.status == UNAUTHORIZED <==> !Accounts.IsAuthenticated(st.tokens, id, token)
    ensures r.status == NOT_FOUND <==>
              Accounts.IsAuthenticated(st.tokens, id, token) && !Accounts.CheckUserExist(st.users, friendId)
    ensures r.status == OK <==>
              Accounts.IsAuthenticated(st.tokens, id, token) && Accounts.FindUser(st.users, friendId).Some?
    ensures r.status == OK ==>
              && Accounts.FindUser(st.users, friendId).Some?
              && r.body == Profile(Users.ToDTO(Accounts.FindUser(st.users, friendId).value))
              && r.body.profile.id == Some(friendId)
  {
    if !Accounts.IsAuthenticated(st.tokens, id, token) then Refuse(UNAUTHORIZED, st)
    else if !Accounts.CheckUserExist(st.users, friendId) then Refuse(NOT_FOUND, st)
    else Reply(OK, Profile(Users.ToDTO(Accounts.FindUser(st.users, friendId).value)), st, [])
  }

  /** `viewChatHistory`: the messages of the pair's private room, found in
      either order. Friendship is not checked. */
  function ViewChatHistory(st: Store, id: string, token: string, friendId: string): (r: Reply)
    ensures r.store == st && r.pushes == []
    ensures r.status == UNAUTHORIZED <==> !Accounts.IsAuthenticated(st.tokens, id, token)
    ensures r.status == NOT_FOUND <==>
              && Accounts.IsAuthenticated(st.tokens, id, token)
              && Accounts.FindUser(st.users, id).Some? && Accounts.FindUser(st.users, friendId).Some?
              && Chat.FindOurChatroom(st.rooms, Accounts.FindUser(st.users, id).value,
                                      Accounts.FindUser(st.users, friendId).value).None?
    ensures r.status == OK <==>
              && Accounts.IsAuthenticated(st.tokens, id, token)
              && Accounts.FindUser(st.users, id).Some? && Accounts.FindUser(st.users, friendId).Some?
              && Chat.FindOurChatroom(st.rooms, Accounts.FindUser(st.users, id).value,
                                      Accounts.FindUser(st.users, friendId).value).Some?
    ensures r.status == OK ==>
              && Accounts.FindUser(st.users, id).Some? && Accounts.FindUser(st.users, friendId).Some?
              && var room := Chat.FindOurChatroom(st.rooms, Accounts.FindUser(st.users, id).value,
                                                  Accounts.FindUser(st.users, friendId).value);
                 room.Some? && r.body == MessageList(Chat.GetAllMessage(st.messages, room.value))
  {
    if !Accounts.IsAuthenticated(st.tokens, id, token) then Refuse(UNAUTHORIZED, st)
    else
      var user := Accounts.FindUser(st.users, id);
      var friend := Accounts.FindUser(st.users, friendId);
      if user.None? || friend.None? then Refuse(SERVER_ERROR, st)
      else
        match Chat.FindOurChatroom(st.rooms, user.value, friend.value)
        case None => Refuse(NOT_FOUND, st)
        case Some(room) => Reply(OK, MessageList(Chat.GetAllMessage(st.messages, room)), st, [])
  }

  /** The room a direct message goes to, with the store after creating it
      when the pair has none yet. */
  function RoomFor(st: Store, user: User, friend: User, now: int): (r: Chat.Created)
    ensures Chat.FindOurChatroom(st.rooms, user, friend).Some? ==>
              r.store == st && r.room == Chat.FindOurChatroom(st.rooms, user, friend).value
    ensures Chat.FindOurChatroom(st.rooms, user, friend).None? ==>
              r == Chat.CreatePrivateChatroom(st, user, friend, now)
    ensures r.room in r.store.rooms
  {
    match Chat.FindOurChatroom(st.rooms, user, friend)
    case Some(room) => Chat.Created(room, st)
    case None =>
      var c := Chat.CreatePrivateChatroom(st, user, friend, now);
      assert c.store.rooms[|st.rooms|] == c.room;
      c
  }

  /** `sendMessage` to a friend: 401, then 403 unless the caller has added
      the friend; then find or create the pair's room and store one
      message in it. */
  function SendMessage(st: Store, id: string, token: string, friendId: string, content: JString, now: int): (r: Reply)
    ensures r.pushes == []
    ensures r.status == UNAUTHORIZED <==> !Accounts.IsAuthenticated(st.tokens, id, token)
    ensures r.status == FORBIDDEN <==>
              && Accounts.IsAuthenticated(st.tokens, id, token)
              && Accounts.FindUser(st.users, id).Some? && Accounts.FindUser(st.users, friendId).Some?
              && !Friends.IsYourFriend(st.friendships, Accounts.FindUser(st.users, id).value,
                                       Accounts.FindUser(st.users, friendId).value)
    ensures r.status == OK <==>
              && Accounts.IsAuthenticated(st.tokens, id, token)
              && Accounts.FindUser(st.users, id).Some? && Accounts.FindUser(st.users, friendId).Some?
              && Friends.IsYourFriend(st.friendships, Accounts.FindUser(st.users, id).value,
                                      Accounts.FindUser(st.users, friendId).value)
    ensures r.status != OK ==> r.store == st
    ensures r.status == OK ==>
              && Accounts.FindUser(st.users, id).Some? && Accounts.FindUser(st.users, friendId).Some?
              && var user, friend := Accounts.FindUser(st.users, id).value, Accounts.FindUser(st.users, friendId).value;
                 var target := RoomFor(st, user, friend, now);
                 && Friends.IsYourFriend(st.friendships, user, friend)
                 && r.store == Chat.SendMessage(target.store, user, target.room, content, now)
                 && |r.store.rooms| == |st.rooms| + (if Chat.FindOurChatroom(st.rooms, user, friend).None? then 1 else 0)
    ensures r.status == OK ==> |r.store.messages| == |st.messages| + 1
  {
    if !Accounts.IsAuthenticated(st.tokens, id, token) then Refuse(UNAUTHORIZED, st)
    else
      var user := Accounts.FindUser(st.users, id);
      var friend := Accounts.FindUser(st.users, friendId);
      if user.None? || friend.None? then Refuse(SERVER_ERROR, st)
      else if !Friends.IsYourFriend(st.friendships, user.value, friend.value) then Refuse(FORBIDDEN, st)
      else
        var target := RoomFor(st, user.value, friend.value, now);
        Reply(OK, NoContent, Chat.SendMessage(target.store, user.value, target.room, content, now), [])
  }
}

=== FILE: friends.dfy ===
/**
 The friend service: a directed relation stored as friendship records
 (user, friend), each side an (id, name) snapshot compared as a whole value.
 */
module Friends {
  import opened Model
  import Users

  /** A record links exactly these two snapshots. */
  predicate Links(f: Friendship, user: UserDTO, friend: UserDTO)
  {
    f.user == user && f.friend == friend
  }

  /** `findByUserAndFriend`: the first record of the pair. */
  function FindByUserAndFriend(fs: seq<Friendship>, user: UserDTO, friend: UserDTO): (r: Option<Friendship>)
    ensures r.Some? ==> r.value in fs && Links(r.value, user, friend)
    ensures r.None? <==> forall k :: 0 <= k < |fs| ==> !Links(fs[k], user, friend)
  {
    if fs == [] then None
    else if Links(fs[0], user, friend) then Some(fs[0])
    else
      var r := FindByUserAndFriend(fs[1..], user, friend);
      assert r.None? ==> forall k :: 0 <= k < |fs| ==> !Links(fs[k], user, friend) by {
        if r.None? {
          forall k | 0 <= k < |fs|
            ensures !Links(fs[k], user, friend)
          {
            if k > 0 {
              assert fs[k] == fs[1..][k - 1];
            }
          }
        }
      }
      r
  }

  /** `isYourFriend`: `user` has added `friend`. */
  function IsYourFriend(fs: seq<Friendship>, user: User, friend: User): (r: bool)
    ensures r <==> exists k :: 0 <= k < |fs| && Links(fs[k], Users.ToDTO(user), Users.ToDTO(friend))
  {
    FindByUserAndFriend(fs, Users.ToDTO(user), Users.ToDTO(friend)).Some?
  }

  /** `addFriend`: store one record (user, friend) under the next id. */
  function AddFriend(fs: seq<Friendship>, id: int, user: User, friend: User): (fs': seq<Friendship>)
    ensures |fs'| == |fs| + 1 && fs'[..|fs|] == fs
    ensures fs'[|fs|] == Friendship(id, Users.ToDTO(user), Users.ToDTO(friend))
    ensures IsYourFriend(fs', user, friend)
  {
    var fs' := fs + [Friendship(id, Users.ToDTO(user), Users.ToDTO(friend))];
    assert Links(fs'[|fs|], Users.ToDTO(user), Users.ToDTO(friend));
    fs'
  }

  /** The relation is directed: adding (user, friend) changes the answer
      for no other ordered pair, in particular not for (friend, user)
      unless the two snapshots coincide. */
  lemma AddFriendOnlyAddsPair(fs: seq<Friendship>, id: int, user: User, friend: User, a: User, b: User)
    ensures IsYourFriend(AddFriend(fs, id, user, friend), a, b)
        <==> IsYourFriend(fs, a, b) || (Users.ToDTO(a) == Users.ToDTO(user) && Users.ToDTO(b) == Users.ToDTO(friend))
  {
    var fs' := AddFriend(fs, id, user, friend);
    if IsYourFriend(fs', a, b) {
      var k :| 0 <= k < |fs'| && Links(fs'[k], Users.ToDTO(a), Users.ToDTO(b));
      if k < |fs| {
        assert fs[k] == fs'[k];
      }
    }
    if IsYourFriend(fs, a, b) {
      var k :| 0 <= k < |fs| && Links(fs[k], Users.ToDTO(a), Users.ToDTO(b));
      assert fs'[k] == fs[k];
    }
  }

  /** `getFriends`: the friend side of every record whose user side is
      this user's snapshot, in storage order. */
  function GetFriends(fs: seq<Friendship>, user: User): (r: seq<UserDTO>)
    ensures |r| <= |fs|
    ensures forall d :: d in r <==> exists k :: 0 <= k < |fs| && Links(fs[k], Users.ToDTO(user), d)
  {
    if fs == [] then []
    else
      var rest := GetFriends(fs[1..], user);
      assert forall k :: 1 <= k < |fs| ==> fs[1..][k - 1] == fs[k];
      if fs[0].user == Users.ToDTO(user) then [fs[0].friend] + rest else rest
  }

  /** A stored record extends the friend list of its user by one entry at
      the end and leaves every other list alone. */
  lemma {:induction false} GetFriendsAppend(fs: seq<Friendship>, f: Friendship, user: User)
    ensures GetFriends(fs + [f], user)
         == GetFriends(fs, user) + (if f.user == Users.ToDTO(user) then [f.friend] else [])
  {
    if fs == [] {
      assert fs + [f] == [f];
    } else {
      assert (fs + [f])[1..] == fs[1..] + [f];
      GetFriendsAppend(fs[1..], f, user);
    }
  }

  /** After `addFriend(u, f)` the friend list of u is the old one plus f. */
  lemma AddFriendExtendsList(fs: seq<Friendship>, id: int, user: User, friend: User)
    ensures GetFriends(AddFriend(fs, id, user, friend), user) == GetFriends(fs, user) + [Users.ToDTO(friend)]
  {
    GetFriendsAppend(fs, Friendship(id, Users.ToDTO(user), Users.ToDTO(friend)), user);
  }
}

=== FILE: invariants.dfy ===
/**
 Consistency of the store that the services rely on without checking it:
 user ids are unique (they are the primary key), every token belongs to a
 stored user, room ids are issued by the counter and unique, two private
 rooms never join the same pair, and a friendship pair is recorded once.
 Every endpoint and socket event that writes keeps all of them, so in a
 store reached from the empty one an authenticated caller is always found
 and a pair of friends shares a single private room.
 */
module StoreInvariants {
  import opened Model
  import opened Responses
  import Users
  import Accounts
  import Friends
  import Chat
  import ChatEndpoints
  import FriendEndpoints
  import AccountEndpoints
  import SocketEvents

  predicate UserIdsUnique(users: seq<User>)
  {
    forall i, j :: 0 <= i < j < |users| ==> users[i].id != users[j].id
  }

  predicate TokensBelongToUsers(st: Store)
  {
    forall id :: id in st.tokens ==> Accounts.CheckUserExist(st.users, id)
  }

  predicate RoomIdsIssued(st: Store)
  {
    forall k :: 0 <= k < |st.rooms| ==> st.rooms[k].id < st.nextRoomId
  }

  predicate RoomIdsUnique(rooms: seq<Chatroom>)
  {
    forall i, j :: 0 <= i < j < |rooms| ==> rooms[i].id != rooms[j].id
  }

  /** No later private room joins the pair of an earlier one, in either
      order. */
  predicate PrivatePairsUnique(rooms: seq<Chatroom>)
  {
    forall i, j :: 0 <= i < j < |rooms| && !rooms[i].isGroup && !rooms[j].isGroup ==>
      !Chat.Joins(rooms[j], rooms[i].participant1, rooms[i].participant2)
  }

  predicate FriendshipsUnique(fs: seq<Friendship>)
  {
    forall i, j :: 0 <= i < j < |fs| ==> !Friends.Links(fs[j], fs[i].user, fs[i].friend)
  }

  predicate RoomsValid(st: Store)
  {
    RoomIdsIssued(st) && RoomIdsUnique(st.rooms) && PrivatePairsUnique(st.rooms)
  }

  predicate Valid(st: Store)
  {
    && UserIdsUnique(st.users)
    && TokensBelongToUsers(st)
    && RoomsValid(st)
    && FriendshipsUnique(st.friendships)
  }

  /** The empty store the application starts from. */
  function Empty(): (st: Store)
    ensures Valid(st)
    ensures st.users == [] && st.tokens == map[] && st.rooms == []
  {
    Store([], map[], map[], [], [], [], [], 1, 1, 1)
  }

  // ---------------------------------------------------------------
  // Room rows: what a send rewrites and what a creation appends
  // ---------------------------------------------------------------

  /** Two room tables that agree on every column the invariants read. */
  predicate SameShapes(a: seq<Chatroom>, b: seq<Chatroom>)
  {
    |a| == |b| &&
    forall k :: 0 <= k < |a| ==>
      && a[k].id == b[k].id && a[k].isGroup == b[k].isGroup
      && a[k].participant1 == b[k].participant1 && a[k].participant2 == b[k].participant2
  }

  /** Saving a stored room back with a new timestamp and preview changes
      no identity or participant column of any row. */
  lemma SendKeepsShapes(st: Store, sender: User, room: Chatroom, content: JString, now: int)
    requires RoomIdsUnique(st.rooms) && room in st.rooms
    ensures SameShapes(st.rooms, Chat.SendMessage(st, sender, room, content, now).rooms)
  {
    var rooms' := Chat.SendMessage(st, sender, room, content, now).rooms;
    var m :| 0 <= m < |st.rooms| && st.rooms[m] == room;
    forall k | 0 <= k < |st.rooms|
      ensures rooms'[k].id == st.rooms[k].id && rooms'[k].isGroup == st.rooms[k].isGroup
      ensures rooms'[k].participant1 == st.rooms[k].participant1 && rooms'[k].participant2 == st.rooms[k].participant2
    {
      if st.rooms[k].id == room.id {
        assert k == m;
      }
    }
  }

  /** The room invariants read only the columns SameShapes compares. */
  lemma ShapesKeepInvariants(a: seq<Chatroom>, b: seq<Chatroom>)
    requires SameShapes(a, b)
    ensures RoomIdsUnique(a) ==> RoomIdsUnique(b)
    ensures PrivatePairsUnique(a) ==> PrivatePairsUnique(b)
    ensures forall u1, u2 :: Chat.FindOurChatroom(a, u1, u2).None? <==> Chat.FindOurChatroom(b, u1, u2).None?
  {
    forall u1, u2
      ensures Chat.FindOurChatroom(a, u1, u2).None? <==> Chat.FindOurChatroom(b, u1, u2).None?
    {
      var d1, d2 := Users.ToDTO(u1), Users.ToDTO(u2);
      assert forall k :: 0 <= k < |a| ==> (Chat.Joins(a[k], d1, d2) <==> Chat.Joins(b[k], d1, d2));
    }
  }

  /** Creating the room of a pair that has none keeps the room invariants. */
  lemma CreateKeepsRooms(st: Store, u1: User, u2: User, now: int)
    requires RoomsValid(st) && Chat.FindOurChatroom(st.rooms, u1, u2).None?
    ensures RoomsValid(Chat.CreatePrivateChatroom(st, u1, u2, now).store)
  {
    var c := Chat.CreatePrivateChatroom(st, u1, u2, now);
    var rooms', n := c.store.rooms, |st.rooms|;
    assert forall k :: 0 <= k < n ==> rooms'[k] == st.rooms[k];
    forall i, j | 0 <= i < j < |rooms'| && !rooms'[i].isGroup && !rooms'[j].isGroup
      ensures !Chat.Joins(rooms'[j], rooms'[i].participant1, rooms'[i].participant2)
    {
      if j == n {
        assert !Chat.Joins(st.rooms[i], Users.ToDTO(u1), Users.ToDTO(u2));
      }
    }
  }

  /** A stored private pair has exactly one room. */
  lemma {:induction false} OneRoomPerPair(rooms: seq<Chatroom>, a: UserDTO, b: UserDTO, i: int, j: int)
    requires PrivatePairsUnique(rooms)
    requires 0 <= i < |rooms| && 0 <= j < |rooms| && !rooms[i].isGroup && !rooms[j].isGroup
    requires Chat.Joins(rooms[i], a, b) && Chat.Joins(rooms[j], a, b)
    ensures i == j
  {
    if i < j {
      assert Chat.Joins(rooms[j], rooms[i].participant1, rooms[i].participant2);
    } else if j < i {
      assert Chat.Joins(rooms[i], rooms[j].participant1, rooms[j].participant2);
    }
  }

  // ---------------------------------------------------------------
  // Preservation, one writing operation at a time
  // ---------------------------------------------------------------

  /** A row appended to the user table leaves every existing id findable. */
  lemma FindUserAfterAppend(users: seq<User>, user: User, id: string)
    requires Accounts.CheckUserExist(users, id)
    ensures Accounts.CheckUserExist(users + [user], id)
  {
    var k :| 0 <= k < |users| && users[k] == Accounts.FindUser(users, id).value;
    assert (users + [user])[k] == users[k];
  }

  lemma SignupKeepsValid(st: Store, user: User)
    requires Valid(st)
    ensures Valid(AccountEndpoints.Signup(st, user).store)
  {
    var r := AccountEndpoints.Signup(st, user);
    if r.status == OK {
      var users' := st.users + [user];
      assert forall k :: 0 <= k < |st.users| ==> st.users[k].id != user.id;
      assert forall k :: 0 <= k < |st.users| ==> users'[k] == st.users[k];
      forall id | id in st.tokens
        ensures Accounts.CheckUserExist(users', id)
      {
        FindUserAfterAppend(st.users, user, id);
      }
    }
  }

  lemma LoginKeepsValid(st: Store, formId: JString, password: JString, newToken: string)
    requires Valid(st)
    ensures Valid(AccountEndpoints.Login(st, formId, password, newToken).store)
  {
  }

  lemma LogoutKeepsValid(st: Store, id: string, token: string)
    requires Valid(st)
    ensures Valid(AccountEndpoints.Logout(st, id, token).store)
  {
  }

  /** Rewriting a key keeps every row's id where it was. */
  lemma SetAPIKeyKeepsIds(users: seq<User>, user: User, key: JString)
    requires UserIdsUnique(users)
    ensures UserIdsUnique(Accounts.SetAPIKey(users, user, key))
    ensures forall id :: Accounts.CheckUserExist(users, id) ==> Accounts.CheckUserExist(Accounts.SetAPIKey(users, user, key), id)
  {
    var users' := Accounts.SetAPIKey(users, user, key);
    assert forall k :: 0 <= k < |users| ==> users'[k].id == users[k].id;
    forall id | Accounts.CheckUserExist(users, id)
      ensures Accounts.CheckUserExist(users', id)
    {
      var k :| 0 <= k < |users| && users[k] == Accounts.FindUser(users, id).value;
      assert users'[k].id == Some(id);
    }
  }

  lemma SetAPIKeyKeepsValid(st: Store, id: string, token: string, key: JString)
    requires Valid(st)
    ensures Valid(AccountEndpoints.SetAPIKey(st, id, token, key).store)
  {
    if Accounts.IsAuthenticated(st.tokens, id, token) && Accounts.FindUser(st.users, id).Some? {
      var user := Accounts.FindUser(st.users, id).value;
      var st' := st.(users := Accounts.SetAPIKey(st.users, user, key));
      assert AccountEndpoints.SetAPIKey(st, id, token, key).store == st';
      SetAPIKeyKeepsIds(st.users, user, key);
      assert TokensBelongToUsers(st');
      assert RoomsValid(st') && FriendshipsUnique(st'.friendships);
    }
  }

  /** Recording a pair that is not yet recorded keeps pairs unique. */
  lemma AddFriendKeepsPairsUnique(fs: seq<Friendship>, fid: int, user: User, friend: User)
    requires FriendshipsUnique(fs) && !Friends.IsYourFriend(fs, user, friend)
    ensures FriendshipsUnique(Friends.AddFriend(fs, fid, user, friend))
  {
    var fs' := Friends.AddFriend(fs, fid, user, friend);
    forall i, j | 0 <= i < j < |fs'|
      ensures !Friends.Links(fs'[j], fs'[i].user, fs'[i].friend)
    {
      assert fs'[i] == fs[i];
      if j < |fs| {
        assert fs'[j] == fs[j];
      }
    }
  }

  lemma AddFriendKeepsValid(st: Store, id: string, token: string, friendId: string)
    requires Valid(st)
    ensures Valid(FriendEndpoints.AddFriend(st, id, token, friendId).store)
  {
    var r := FriendEndpoints.AddFriend(st, id, token, friendId);
    if r.status == OK {
      var user, friend := Accounts.FindUser(st.users, id).value, Accounts.FindUser(st.users, friendId).value;
      AddFriendKeepsPairsUnique(st.friendships, st.nextFriendshipId, user, friend);
    }
  }

  /** A send into an existing room rewrites only that room's timestamp and
      preview. */
  lemma SendKeepsValid(st: Store, sender: User, room: Chatroom, content: JString, now: int)
    requires Valid(st) && room in st.rooms
    ensures Valid(Chat.SendMessage(st, sender, room, content, now))
  {
    SendKeepsShapes(st, sender, room, content, now);
    ShapesKeepInvariants(st.rooms, Chat.SendMessage(st, sender, room, content, now).rooms);
  }

  lemma SendMessageToRoomKeepsValid(st: Store, id: string, token: string, roomId: int, content: JString, now: int)
    requires Valid(st)
    ensures Valid(ChatEndpoints.SendMessageToRoom(st, id, token, roomId, content, now).store)
  {
    var r := ChatEndpoints.SendMessageToRoom(st, id, token, roomId, content, now);
    if Accounts.IsAuthenticated(st.tokens, id, token) && Chat.FindChatroom(st.rooms, roomId).Some?
       && Accounts.FindUser(st.users, id).Some? {
      SendKeepsValid(st, Accounts.FindUser(st.users, id).value, Chat.FindChatroom(st.rooms, roomId).value, content, now);
    }
  }

  /** The direct message keeps the invariants, in particular it creates a
      private room only for a pair that has none. */
  lemma FriendSendKeepsValid(st: Store, id: string, token: string, friendId: string, content: JString, now: int)
    requires Valid(st)
    ensures Valid(FriendEndpoints.SendMessage(st, id, token, friendId, content, now).store)
  {
    var r := FriendEndpoints.SendMessage(st, id, token, friendId, content, now);
    if r.status == OK {
      var user, friend := Accounts.FindUser(st.users, id).value, Accounts.FindUser(st.users, friendId).value;
      var target := FriendEndpoints.RoomFor(st, user, friend, now);
      if Chat.FindOurChatroom(st.rooms, user, friend).None? {
        CreateKeepsRooms(st, user, friend, now);
      }
      SendKeepsValid(target.store, user, target.room, content, now);
    }
  }

  lemma SocketEventsKeepValid(st: Store, session: string, id: JString, token: JString)
    requires Valid(st)
    ensures Valid(SocketEvents.OnLogin(st, session, id, token))
    ensures Valid(SocketEvents.OnDisconnect(st, session))
  {
  }

  // ---------------------------------------------------------------
  // Consequences
  // ---------------------------------------------------------------

  /** In a valid store an authenticated caller always has a row, so none of
      the handlers that dereference the caller fails with 500 for that
      reason. */
  lemma AuthenticatedCallerIsStored(st: Store, id: string, token: string, key: JString)
    requires TokensBelongToUsers(st) && Accounts.IsAuthenticated(st.tokens, id, token)
    ensures Accounts.FindUser(st.users, id).Some?
    ensures FriendEndpoints.GetInfo(st, id, token).status == OK
    ensures ChatEndpoints.ViewChatRoom(st, id, token).status == OK
    ensures AccountEndpoints.SetAPIKey(st, id, token, key).status == OK
    ensures AccountEndpoints.GetInfo(st, id, token).body == AccountInfo(Accounts.FindUser(st.users, id))
  {
    assert id in st.tokens;
  }

  /** The row found for an id in a valid user table is the only one. */
  lemma {:induction false} FoundUserIsUnique(users: seq<User>, id: string, k: int)
    requires UserIdsUnique(users) && 0 <= k < |users| && users[k].id == Some(id)
    ensures Accounts.FindUser(users, id) == Some(users[k])
  {
    var found := Accounts.FindUser(users, id).value;
    var m :| 0 <= m < |users| && users[m] == found && forall n :: 0 <= n < m ==> users[n].id != Some(id);
    if m < k {
      assert users[m].id == users[k].id;
    }
  }

  /** Once a message between a and b has gone through, every later
      successful message between them, in either direction, goes into an
      existing room: the pair never gets a second one. */
  lemma FollowUpReusesRoom(st: Store, a: string, tokenA: string, b: string, first: JString, t1: int,
                           c: string, tokenC: string, d: string, second: JString, t2: int)
    requires Valid(st)
    requires (c == a && d == b) || (c == b && d == a)
    requires FriendEndpoints.SendMessage(st, a, tokenA, b, first, t1).status == OK
    requires FriendEndpoints.SendMessage(FriendEndpoints.SendMessage(st, a, tokenA, b, first, t1).store,
                                         c, tokenC, d, second, t2).status == OK
    ensures var st1 := FriendEndpoints.SendMessage(st, a, tokenA, b, first, t1).store;
            var st2 := FriendEndpoints.SendMessage(st1, c, tokenC, d, second, t2).store;
            |st2.rooms| == |st1.rooms| <= |st.rooms| + 1
  {
    var st1 := FriendEndpoints.SendMessage(st, a, tokenA, b, first, t1).store;
    var userA, userB := Accounts.FindUser(st.users, a).value, Accounts.FindUser(st.users, b).value;
    var target := FriendEndpoints.RoomFor(st, userA, userB, t1);
    if Chat.FindOurChatroom(st.rooms, userA, userB).None? {
      CreateKeepsRooms(st, userA, userB, t1);
      Chat.CreateThenFind(st, userA, userB, t1);
    }
    assert Chat.FindOurChatroom(target.store.rooms, userA, userB).Some?;
    SendKeepsShapes(target.store, userA, target.room, first, t1);
    ShapesKeepInvariants(target.store.rooms, st1.rooms);
    Chat.FindOurChatroomSymmetric(st1.rooms, userA, userB);
    assert st1.users == st.users;
  }
}

=== FILE: model.dfy ===
/**
 The entities of the chat backend and the one abstract store every service
 and endpoint works on. Java `String` fields that may be `null` are `JString`;
 `LocalDateTime` is an integer clock; identity columns are integers drawn from
 per-table counters.
 */
module Model {

  datatype Option<+T> = None | Some(value: T)

  /** A Java `String` reference: `None` is `null`. */
  type JString = Option<string>

  /** Java's string conversion in `a + b`: a `null` operand prints as "null". */
  function Show(s: JString): string
  {
    match s
    case None => "null"
    case Some(v) => v
  }

  /** The (id, name) snapshot of a user embedded in rooms, messages,
      participant records and friendships. */
  datatype UserDTO = UserDTO(id: JString, name: JString)

  datatype User = User(id: JString, name: JString, password: JString, email: JString, apiKey: JString)

  /** A chatroom. For a group room the two participant columns are unused
      (`UserDTO(None, None)` stands for the null embedded value) and the
      roster lives in participant records. */
  datatype Chatroom = Chatroom(
    id: int,
    roomName: JString,
    participant1: UserDTO,
    participant2: UserDTO,
    isGroup: bool,
    lastModified: int,
    lastMessage: JString)

  /** A stored message; `room` is the id of the owning chatroom. */
  datatype Message = Message(id: int, room: int, content: JString, time: int, sender: UserDTO)

  /** A group-room roster entry. */
  datatype Participant = Participant(id: int, room: int, participant: UserDTO)

  /** A directed friendship record: `user` has added `friend`. */
  datatype Friendship = Friendship(id: int, user: UserDTO, friend: UserDTO)

  /** The payload pushed to an online participant when a message arrives. */
  datatype Notification = Notification(roomId: int, senderName: JString, content: JString)

  /** One entry of the output log: a payload handed to the push transport. */
  datatype Push = Push(destination: string, notification: Notification)

  /** Every piece of state the services keep, in one immutable record.
      Sequences keep storage order; `tokens` is the user-id -> token map of the
      account service and `sessions` the session-id -> user-id map of the
      websocket session manager. */
  datatype Store = Store(
    users: seq<User>,
    tokens: map<string, string>,
    sessions: map<string, string>,
    rooms: seq<Chatroom>,
    participants: seq<Participant>,
    messages: seq<Message>,
    friendships: seq<Friendship>,
    nextRoomId: int,
    nextMessageId: int,
    nextFriendshipId: int)
}

=== FILE: responses.dfy ===
/**
 What an endpoint hands back: a status code, the body for the success
 case, the store after the request, and the notifications pushed while
 serving it, in order. Error bodies carry no detail.
 */
module Responses {
  import opened Model

  const OK: int := 200
  const UNAUTHORIZED: int := 401
  const FORBIDDEN: int := 403
  const NOT_FOUND: int := 404
  const CONFLICT: int := 409
  const UNSUPPORTED_MEDIA_TYPE: int := 415
  /** An exception escaped the handler (a null dereference or a refused
      push); Spring answers 500. */
  const SERVER_ERROR: int := 500

  datatype Body =
    | NoContent
    | Failure
    | MessageList(messages: seq<Message>)
    | UserList(users: seq<UserDTO>)
    | RoomList(rooms: seq<Chatroom>)
    | Profile(profile: UserDTO)
    | AccountInfo(account: Option<User>)
    | TokenIssued(id: JString, token: string)

  datatype Reply = Reply(status: int, body: Body, store: Store, pushes: seq<Push>)

  /** A refusal: the store is left as it was and nothing is pushed. */
  function Refuse(status: int, st: Store): Reply
  {
    Reply(status, Failure, st, [])
  }
}

=== FILE: room_order.dfy ===
/**
 The order of a user's room list: most recently active first. ChatService
 sorts with a stable merge sort on `lastModified`, reversed; the model uses
 a stable insertion sort and states both halves of stability: the result is
 non-increasing in `lastModified`, and the rooms sharing a timestamp keep
 their input order.
 */
module RoomOrder {
  import opened Model

  predicate NonIncreasing(rooms: seq<Chatroom>)
  {
    forall i, j :: 0 <= i < j < |rooms| ==> rooms[i].lastModified >= rooms[j].lastModified
  }

  /** The rooms last modified at time t, in sequence order. */
  function WithStamp(rooms: seq<Chatroom>, t: int): (r: seq<Chatroom>)
    ensures forall c :: c in r <==> c in rooms && c.lastModified == t
    ensures |r| <= |rooms|
  {
    if rooms == [] then []
    else
      assert forall c :: c in rooms <==> c == rooms[0] || c in rooms[1..];
      if rooms[0].lastModified == t then [rooms[0]] + WithStamp(rooms[1..], t)
      else WithStamp(rooms[1..], t)
  }

  /** Selection distributes over concatenation, so it keeps sequence order
      and multiplicity. */
  lemma {:induction false} WithStampAppend(a: seq<Chatroom>, b: seq<Chatroom>, t: int)
    ensures WithStamp(a + b, t) == WithStamp(a, t) + WithStamp(b, t)
  {
    if a == [] {
      assert a + b == b;
    } else {
      assert (a + b)[0] == a[0];
      assert (a + b)[1..] == a[1..] + b;
      WithStampAppend(a[1..], b, t);
    }
  }

  /** A room not older than any room of a sorted list can lead it. */
  lemma PrependKeepsOrder(head: Chatroom, rooms: seq<Chatroom>)
    requires NonIncreasing(rooms)
    requires forall c :: c in rooms ==> c.lastModified <= head.lastModified
    ensures NonIncreasing([head] + rooms)
  {
    var r := [head] + rooms;
    forall i, j | 0 <= i < j < |r|
      ensures r[i].lastModified >= r[j].lastModified
    {
      assert r[j] == rooms[j - 1];
      if i > 0 {
        assert r[i] == rooms[i - 1];
      }
    }
  }

  /** Puts `x` in front of the first room that is not more recent than it. */
  function Insert(x: Chatroom, rooms: seq<Chatroom>): (r: seq<Chatroom>)
    requires NonIncreasing(rooms)
    ensures NonIncreasing(r)
    ensures multiset(r) == multiset(rooms) + multiset{x}
    ensures |r| == |rooms| + 1
  {
    if rooms == [] || rooms[0].lastModified <= x.lastModified then
      PrependKeepsOrder(x, rooms);
      [x] + rooms
    else
      var head, rest := rooms[0], rooms[1..];
      assert rooms == [head] + rest;
      var ins := Insert(x, rest);
      forall c | c in ins
        ensures c.lastModified <= head.lastModified
      {
        assert c in multiset(ins);
        if c != x {
          assert c in multiset(rest);
          var k :| 0 <= k < |rest| && rest[k] == c;
          assert rooms[k + 1] == c;
        }
      }
      PrependKeepsOrder(head, ins);
      [head] + ins
  }

  /** Inserting `x` keeps, for every timestamp, the order in which `x`
      followed by `rooms` presents the rooms of that timestamp. */
  lemma {:induction false} InsertKeepsStampOrder(x: Chatroom, rooms: seq<Chatroom>, t: int)
    requires NonIncreasing(rooms)
    ensures WithStamp(Insert(x, rooms), t) == WithStamp([x] + rooms, t)
  {
    if rooms == [] || rooms[0].lastModified <= x.lastModified {
    } else {
      var rest := rooms[1..];
      assert rooms == [rooms[0]] + rest;
      InsertKeepsStampOrder(x, rest, t);
      var ins := Insert(x, rest);
      assert ([rooms[0]] + ins)[1..] == ins;
      assert ([x] + rooms)[1..] == rooms;
      assert ([x] + rest)[1..] == rest;
    }
  }

  /** The room list order: stable, most recent first. */
  function SortByRecency(rooms: seq<Chatroom>): (r: seq<Chatroom>)
    ensures NonIncreasing(r)
    ensures multiset(r) == multiset(rooms)
    ensures |r| == |rooms|
    ensures forall c :: c in r <==> c in rooms
  {
    if rooms == [] then []
    else
      assert rooms == [rooms[0]] + rooms[1..];
      var r := Insert(rooms[0], SortByRecency(rooms[1..]));
      assert forall c :: c in r <==> c in multiset(r);
      r
  }

  /** Stability: rooms that share a timestamp come out in input order. */
  lemma {:induction false} SortKeepsStampOrder(rooms: seq<Chatroom>, t: int)
    ensures WithStamp(SortByRecency(rooms), t) == WithStamp(rooms, t)
  {
    if rooms != [] {
      var rest := rooms[1..];
      assert rooms == [rooms[0]] + rest;
      SortKeepsStampOrder(rest, t);
      InsertKeepsStampOrder(rooms[0], SortByRecency(rest), t);
      assert ([rooms[0]] + SortByRecency(rest))[1..] == SortByRecency(rest);
    }
  }
}

=== FILE: sessions.dfy ===
/**
 The websocket session registry: a session-id -> user-id map. A user is
 online exactly when at least one session maps to them, so a user with
 several devices stays online until the last session closes. Queries are
 pure functions of the map and cannot change it.
 */
module Sessions {
  import opened Model

  type SessionMap = map<string, string>

  /** `addSession`: insert, or overwrite the user of a reused session id. */
  function AddSession(m: SessionMap, session: string, user: string): (m': SessionMap)
    ensures SessionExistsById(m', session) && SessionExistsByUserId(m', user)
    ensures m'.Keys == m.Keys + {session}
    ensures m'[session] == user
    ensures forall s :: s in m && s != session ==> m'[s] == m[s]
  {
    m[session := user]
  }

  /** `deleteSession`: remove the session if it is registered, otherwise
      leave the map as it is. */
  function DeleteSession(m: SessionMap, session: string): (m': SessionMap)
    ensures !SessionExistsById(m', session)
    ensures session !in m ==> m' == m
    ensures m'.Keys == m.Keys - {session}
    ensures forall s :: s in m' ==> m'[s] == m[s]
  {
    if SessionExistsById(m, session) then m - {session} else m
  }

  /** `sessionExistsById`. */
  predicate SessionExistsById(m: SessionMap, session: string)
  {
    session in m
  }

  /** The two registry queries agree: a user is online exactly when some
      registered session belongs to them. */
  lemma SessionQueriesAgree(m: SessionMap, session: string, user: string)
    ensures SessionExistsById(m, session) ==> SessionExistsByUserId(m, m[session])
    ensures SessionExistsByUserId(m, user) <==> exists s :: SessionExistsById(m, s) && m[s] == user
  {
  }

  /** `sessionExistsByUserId`: some session belongs to the user. */
  function SessionExistsByUserId(m: SessionMap, user: string): (r: bool)
    ensures r <==> exists s :: s in m && m[s] == user
  {
    user in m.Values
  }

  /** Presence of a user reference; a `null` id is never a session's user,
      because only authenticated ids are registered. */
  predicate IsOnline(m: SessionMap, id: JString)
  {
    id.Some? && SessionExistsByUserId(m, id.value)
  }

  /** `filterOnlineUser`: the online users of `users`, in input order,
      duplicates kept. */
  function FilterOnlineUser(m: SessionMap, users: seq<UserDTO>): (r: seq<UserDTO>)
    ensures |r| <= |users|
    ensures forall u :: u in r <==> u in users && IsOnline(m, u.id)
    ensures forall u :: multiset(r)[u] == if IsOnline(m, u.id) then multiset(users)[u] else 0
  {
    if users == [] then []
    else
      var rest := FilterOnlineUser(m, users[1..]);
      assert users == [users[0]] + users[1..];
      if IsOnline(m, users[0].id) then [users[0]] + rest else rest
  }

  /** The filter distributes over concatenation: it keeps the relative
      order of the users it retains. */
  lemma {:induction false} FilterOnlineUserAppend(m: SessionMap, a: seq<UserDTO>, b: seq<UserDTO>)
    ensures FilterOnlineUser(m, a + b) == FilterOnlineUser(m, a) + FilterOnlineUser(m, b)
  {
    if a == [] {
      assert a + b == b;
    } else {
      assert (a + b)[1..] == a[1..] + b;
      FilterOnlineUserAppend(m, a[1..], b);
    }
  }

  /** Registering a session makes both of its ends visible. */
  lemma AddThenQuery(m: SessionMap, session: string, user: string)
    ensures SessionExistsById(AddSession(m, session, user), session)
    ensures IsOnline(AddSession(m, session, user), Some(user))
  {
  }

  /** A user with two sessions stays online when one of them closes. */
  lemma SecondSessionKeepsUserOnline(m: SessionMap, s1: string, s2: string, user: string)
    requires s1 != s2 && s1 in m && s2 in m && m[s1] == user && m[s2] == user
    ensures SessionExistsByUserId(DeleteSession(m, s1), user)
  {
    assert DeleteSession(m, s1)[s2] == user;
  }

  /** Closing a user's only session takes the user offline. */
  lemma LastSessionTakesUserOffline(m: SessionMap, session: string, user: string)
    requires session in m && m[session] == user
    requires forall s :: s in m && s != session ==> m[s] != user
    ensures !SessionExistsByUserId(DeleteSession(m, session), user)
  {
  }
}

=== FILE: socket_events.dfy ===
/**
 The websocket events that move the session registry: the client's
 `login` message, which registers the session under an authenticated id,
 and the disconnect event, which drops it. Logging out over HTTP does not
 touch the registry, so a user can stay online without a token.
 */
module SocketEvents {
  import opened Model
  import opened Responses
  import Accounts
  import Sessions
  import AccountEndpoints

  /** The `login` message: register the session when the message carries
      an id and its current token, otherwise ignore it. The message body is
      parsed from JSON, so either field may be null. */
  function OnLogin(st: Store, session: string, id: JString, token: JString): (st': Store)
    ensures st'.sessions.Keys <= st.sessions.Keys + {session}
    ensures (id.Some? && token.Some? && Accounts.IsAuthenticated(st.tokens, id.value, token.value))
            ==> st'.sessions == Sessions.AddSession(st.sessions, session, id.value)
    ensures !(id.Some? && token.Some? && Accounts.IsAuthenticated(st.tokens, id.value, token.value)) ==> st' == st
    ensures st' == st.(sessions := st'.sessions)
  {
    if id.Some? && token.Some? && Accounts.IsAuthenticated(st.tokens, id.value, token.value) then
      st.(sessions := Sessions.AddSession(st.sessions, session, id.value))
    else st
  }

  /** The disconnect event: drop the session if it is registered. */
  function OnDisconnect(st: Store, session: string): (st': Store)
    ensures !Sessions.SessionExistsById(st'.sessions, session)
    ensures st'.sessions.Keys == st.sessions.Keys - {session}
    ensures st' == st.(sessions := st'.sessions)
  {
    st.(sessions := Sessions.DeleteSession(st.sessions, session))
  }

  /** A login message whose token is not the id's current token registers
      nothing. */
  lemma ForgedLoginIsIgnored(st: Store, session: string, id: string, token: string)
    requires !Accounts.IsAuthenticated(st.tokens, id, token)
    ensures OnLogin(st, session, Some(id), Some(token)) == st
  {
  }

  /** A user who opens a session and then logs out over HTTP stays online
      but no longer has a notification topic: the situation in which a
      push to that user is refused. */
  lemma LogoutLeavesUserOnline(st: Store, session: string, id: string, token: string)
    requires Accounts.IsAuthenticated(st.tokens, id, token)
    ensures var online := OnLogin(st, session, Some(id), Some(token));
            var out := AccountEndpoints.Logout(online, id, token);
            && out.status == OK
            && Sessions.IsOnline(out.store.sessions, Some(id))
            && Accounts.GetNotificationTopic(out.store.tokens, Some(id)).None?
  {
    var online := OnLogin(st, session, Some(id), Some(token));
    assert online.sessions[session] == id;
    var out := AccountEndpoints.Logout(online, id, token);
    assert out.store.sessions == online.sessions;
  }

  /** A user whose only session closes goes offline. */
  lemma DisconnectTakesUserOffline(st: Store, session: string, id: string)
    requires session in st.sessions && st.sessions[session] == id
    requires forall s :: s in st.sessions && s != session ==> st.sessions[s] != id
    ensures !Sessions.IsOnline(OnDisconnect(st, session).sessions, Some(id))
  {
    Sessions.LastSessionTakesUserOffline(st.sessions, session, id);
  }
}

=== FILE: users.dfy ===
/**
 The signup validator and the DTO projection of a user.
 The e-mail rule is the full match of the pattern `.+@.+\..+`: some
 non-empty text, an '@', non-empty text, a '.', non-empty text, where `.`
 matches any character except a line terminator.
 */
module Users {
  import opened Model

  const MinPasswordLength: nat := 6

  /** The characters Java's `.` refuses to match when no flags are set. */
  predicate IsLineTerminator(c: char)
  {
    c == '\n' || c == '\r' || c == '\U{85}' || c == '\U{2028}' || c == '\U{2029}'
  }

  predicate NoLineTerminator(s: string)
  {
    forall k :: 0 <= k < |s| ==> !IsLineTerminator(s[k])
  }

  /** `s` matches `.+@.+\..+` with the '@' at index i and the '.' at index j. */
  predicate MatchesAt(s: string, i: int, j: int)
  {
    && 0 < i && i + 1 < j && j + 1 < |s|
    && s[i] == '@' && s[j] == '.'
    && NoLineTerminator(s)
  }

  /** The first '@' at or after index `from`. */
  function FirstAt(s: string, from: nat): (r: Option<nat>)
    decreases |s| - from
    ensures r.Some? ==> from <= r.value < |s| && s[r.value] == '@'
    ensures r.Some? ==> forall m :: from <= m < r.value ==> s[m] != '@'
    ensures r.None? ==> forall m :: from <= m < |s| ==> s[m] != '@'
  {
    if from >= |s| then None
    else if s[from] == '@' then Some(from)
    else FirstAt(s, from + 1)
  }

  /** The last '.' at or before index `upTo`. */
  function LastDot(s: string, upTo: int): (r: Option<nat>)
    requires upTo < |s|
    decreases upTo + 1
    ensures r.Some? ==> r.value <= upTo && s[r.value] == '.'
    ensures r.Some? ==> forall m :: r.value < m <= upTo ==> s[m] != '.'
    ensures r.None? ==> forall m :: 0 <= m <= upTo ==> s[m] != '.'
  {
    if upTo < 0 then None
    else if s[upTo] == '.' then Some(upTo)
    else LastDot(s, upTo - 1)
  }

  /** `String.matches(".+@.+\\..+")`: the earliest admissible '@' and the
      latest admissible '.' are the best witnesses, so checking them decides
      the match. */
  function EmailMatches(s: string): (r: bool)
    ensures r <==> exists i, j :: MatchesAt(s, i, j)
  {
    var at := FirstAt(s, 1);
    var dot := LastDot(s, |s| - 2);
    var r := NoLineTerminator(s) && at.Some? && dot.Some? && at.value + 1 < dot.value;
    assert r ==> MatchesAt(s, at.value, dot.value);
    assert (exists i, j :: MatchesAt(s, i, j)) ==> r by {
      if i, j :| MatchesAt(s, i, j) {
        assert s[i] == '@' && s[j] == '.';
      }
    }
    r
  }

  /** A matching address splits as x + "@" + y + "." + z with x, y, z
      non-empty and free of line terminators. */
  function EmailSplit(s: string): (parts: (string, string, string))
    requires EmailMatches(s)
    ensures parts.0 + "@" + parts.1 + "." + parts.2 == s
    ensures |parts.0| > 0 && |parts.1| > 0 && |parts.2| > 0
    ensures NoLineTerminator(parts.0) && NoLineTerminator(parts.1) && NoLineTerminator(parts.2)
  {
    var i, j := FirstAt(s, 1).value, LastDot(s, |s| - 2).value;
    var x, y, z := s[..i], s[i + 1..j], s[j + 1..];
    assert x + "@" + y + "." + z == s by {
      assert s == s[..i] + [s[i]] + s[i + 1..j] + [s[j]] + s[j + 1..];
    }
    (x, y, z)
  }

  /** Conversely, any such split matches the pattern. */
  lemma SplitMatches(x: string, y: string, z: string)
    requires |x| > 0 && |y| > 0 && |z| > 0
    requires NoLineTerminator(x) && NoLineTerminator(y) && NoLineTerminator(z)
    ensures EmailMatches(x + "@" + y + "." + z)
  {
    var s := x + "@" + y + "." + z;
    var i, j := |x|, |x| + 1 + |y|;
    assert s[i] == '@' && s[j] == '.';
    forall k | 0 <= k < |s|
      ensures !IsLineTerminator(s[k])
    {
      if k < i {
        assert s[k] == x[k];
      } else if i < k < j {
        assert s[k] == y[k - i - 1];
      } else if j < k {
        assert s[k] == z[k - j - 1];
      }
    }
    assert MatchesAt(s, i, j);
  }

  /** `User.isValid`: id present and non-empty, password present with at
      least six characters, e-mail present and matching the pattern. */
  function IsValid(u: User): (r: bool)
    ensures u.id == None || u.id == Some("") ==> !r
    ensures u.password == None || |u.password.value| < MinPasswordLength ==> !r
    ensures u.email == None || !EmailMatches(u.email.value) ==> !r
    ensures r <==> u.id.Some? && u.id.value != "" && u.password.Some? && |u.password.value| >= MinPasswordLength
                   && u.email.Some? && (exists i, j :: MatchesAt(u.email.value, i, j))
  {
    if u.id.None? || |u.id.value| == 0 then false
    else if u.password.None? || |u.password.value| < MinPasswordLength then false
    else if u.email.None? || !EmailMatches(u.email.value) then false
    else true
  }

  /** `User.toDTO`: the (id, name) snapshot, everything else dropped. */
  function ToDTO(u: User): (d: UserDTO)
    ensures d.id == u.id && d.name == u.name
  {
    UserDTO(u.id, u.name)
  }

  /** The snapshot does not depend on password, e-mail or API key, so
      changing those never changes which rooms, messages or friendships
      a user matches. */
  lemma ToDTOIgnoresCredentials(u: User, password: JString, email: JString, key: JString)
    ensures ToDTO(u.(password := password, email := email, apiKey := key)) == ToDTO(u)
  {
  }
}
